=== FILE: README.md ===
# CommiTect save pipeline — a Dafny model

CommiTect is a Visual Studio extension. It watches document saves, and after
a short debounce it asks git for the saved file's diff against `HEAD`. It
sends that diff to a classification service and shows the answer as
"`<type>: <message>`". This project models the decision-making core of that
pipeline as pure Dafny functions over immutable datatypes, and proves what
the code promises about each part:

- `FileFilter` (`file_filter.dfy`): which saved paths are worth analysing.
  That means a case-insensitive extension deny-list and a list of ignored
  directory segments, matched after `/` is turned into `\`.
- `IntentProcessor` (`intent_processor.dfy`, worked answers in
  `intent_examples.dfy`): how the service's free-text answer is split into
  lines, how its `Intent:` and `Message:` lines are read, and what string is
  shown.
- `GitService` (`git_service.dfy`): how the outcome of a git process is read
  (exit codes 0 and 1, timeout and kill), the repository test, and the diff
  extraction. The diff extraction covers root normalisation, the relative
  path, the tracked check and the 5 MiB bound, and it never fails.
- `DocumentSaveListener` (`document_save_listener.dfy`): the single-slot
  debouncer. It has the save handler, the timer callback and `Dispose`, and
  it runs as a state machine over events.
- `SavePipeline` (`save_pipeline.dfy`): `ProcessFileAsync`, the steps run
  when the timer fires. It is a function from the answers of git and of the
  service to a trace of effects: status text shown and cleared, the service
  call, the intent shown, the pause, and the warning.
- `Text` (`text.dfy`) holds the .NET string operations the code relies on.
  `Results` (`results.dfy`) holds `Option` and `Result`.

Host calls are parameters, not code:
- `Path.GetDirectoryName`, `Path.GetFullPath` and the `Uri` relative-path
  fallback are function-valued fields of `GitService.PathFunctions`;
- each git invocation is answered by a function from `Invocation` to
  `ProcessOutcome`;
- the analysis service is a function from the diff to `ApiOutcome`;
- the running document table's lookup and `File.Exists` are fields of the
  save event.

Time is not modelled: a timer elapsing is an event of its own.

## Model

| member | source | states |
|---|---|---|
| FileFilter.ShouldProcessFileMeaning | CommitIntentDetector/Commands/FileFilter.cs:38-61 | A path is processed exactly when it is non-empty, its extension is not on the deny-list (ignoring case), and its `\`-normalised form contains no ignored directory segment, ignoring case |
| FileFilter.EmptyPathRejected | CommitIntentDetector/Commands/FileFilter.cs:40-43 | The empty (or null) path is never processed |
| FileFilter.BinaryExtensionRejected | CommitIntentDetector/Commands/FileFilter.cs:46-50 | Any path ending in a deny-listed extension, written in any letter case, is rejected |
| FileFilter.UpperCaseImageRejected | CommitIntentDetector/Commands/FileFilter.cs:13-21 | `logo.PNG` is rejected: the deny-list compares case-insensitively |
| FileFilter.IgnoredSegmentRejected | CommitIntentDetector/Commands/FileFilter.cs:53-58 | A path containing an ignored segment, with either slash and in any case, is rejected whatever its extension |
| FileFilter.DependencyDirectoryRejected | CommitIntentDetector/Commands/FileFilter.cs:53-58 | `C:/repo/node_modules/x.js` is rejected, although `.js` is an accepted extension |
| FileFilter.IgnorePatternShape | CommitIntentDetector/Commands/FileFilter.cs:23-36 | Every ignore pattern begins and ends with a backslash |
| FileFilter.FewSlashesNeverIgnored | CommitIntentDetector/Commands/FileFilter.cs:25-35 | A path with at most one slash of either kind can never contain an ignore pattern |
| FileFilter.LeadingSegmentNotIgnored | CommitIntentDetector/Commands/FileFilter.cs:54-55 | `node_modules\index.js` is processed: a segment at the very start, without a separator before it, does not match |
| FileFilter.PlainSourceFileAccepted | CommitIntentDetector/Commands/FileFilter.cs:38-61 | `src\main.ts` is processed |
| FileFilter.SameCanonicalSameVerdict | CommitIntentDetector/Commands/FileFilter.cs:38-61 | Two paths that agree once slashes are unified and letters folded get the same verdict |
| FileFilter.SlashStyleIrrelevant | CommitIntentDetector/Commands/FileFilter.cs:53 | `a/b` and `a\b` get the same verdict |
| FileFilter.CaseIrrelevant | CommitIntentDetector/Commands/FileFilter.cs:13 | Upper-casing a path does not change its verdict |
| FileFilter.GetExtension | CommitIntentDetector/Commands/FileFilter.cs:46 | The extension is non-empty exactly when the last name contains a dot and its last dot is not its final character; it is then the suffix from that last dot |
| FileFilter.BinaryExtensionShape | CommitIntentDetector/Commands/FileFilter.cs:15-20 | Every deny-listed extension is a dot followed by characters that cannot end an extension scan, so it is recognised as a whole extension |
| Text.IndexOfIgnoreCase | CommitIntentDetector/Commands/FileFilter.cs:54-55 | The index is -1 exactly when the pattern occurs nowhere from the start position; otherwise it is the first position where it occurs, ignoring case |
| Text.Trim | CommiTect/Commands/IntentProcessor.cs:112 | The result is empty exactly for blank input; otherwise it is the slice of the input between its leading and trailing white space, with no white space at either end |
| IntentProcessor.SplitLines | CommiTect/Commands/IntentProcessor.cs:103 | No line is empty and no line contains `\n` or `\r` |
| IntentProcessor.SplitAtBreak | CommiTect/Commands/IntentProcessor.cs:103 | Splitting at a line break splits both sides independently, with no entry for the break itself |
| IntentProcessor.CrLfSeparatesOnce | CommiTect/Commands/IntentProcessor.cs:103 | A CR-LF pair separates two lines like a single break, with no blank line between them |
| IntentProcessor.ScanLines | CommiTect/Commands/IntentProcessor.cs:108-118 | The type is the trimmed remainder of the last `Intent:` line, or "" without one. The message is the trimmed remainder of the last `Message:` line that is not also an `Intent:` line, or "" without one |
| IntentProcessor.ParseIntent | CommiTect/Commands/IntentProcessor.cs:96-128 | Blank input gives ("Unknown", ""). Input without an `Intent:` line, or whose last one is blank after the prefix, gives ("Intent", raw). Otherwise it gives the last intent and the last message. The type is never empty |
| IntentProcessor.DisplayMessageMeaning | CommiTect/Commands/IntentProcessor.cs:26-28 | The text shown is `<type>: <message>`, the values of the last `Intent:` and the last `Message:` line, when the answer is not blank and both values are non-empty. A blank answer, one without an `Intent:` or `Message:` line, or one whose last such line has an empty value is shown as `Intent: ` followed by the raw answer |
| IntentProcessor.DisplayWithoutIntentLine | CommiTect/Commands/IntentProcessor.cs:26-28 | Without any `Intent:` line, the text shown is `Intent: ` followed by the raw answer |
| IntentProcessor.ParseRender | CommiTect/Commands/IntentProcessor.cs:96-128 | Parsing the two-line answer `Intent: <type>` / `Message: <message>` gives back the type and message; when the message is non-empty, `<type>: <message>` is shown |
| IntentProcessor.SingleLineFallback | CommiTect/Commands/IntentProcessor.cs:120-125 | Any single line that is not an `Intent:` line (an indented one, or one merely starting with the letters of "Intent") parses to ("Unknown", "") when blank and to ("Intent", raw) otherwise; either way it is shown after `Intent: ` |
| IntentExamples.StructuredAnswerExample | CommiTect/Commands/IntentProcessor.cs:26-28 | `Intent: Bugfix\nMessage: Fixed null check` is shown as `Bugfix: Fixed null check` |
| IntentExamples.LookalikeAnswerExample | CommiTect/Commands/IntentProcessor.cs:110 | `Intentional cleanup` starts with the letters of "Intent" but not with `Intent:`, so it parses to ("Intent", raw) and is shown as `Intent: Intentional cleanup` |
| IntentExamples.PlainAnswerExample | CommiTect/Commands/IntentProcessor.cs:121-125 | An answer with no `Intent:` line parses to ("Intent", raw) and is shown whole |
| IntentExamples.IndentedIntentLineExample | CommiTect/Commands/IntentProcessor.cs:110 | Lines are not trimmed before the prefix test, so `  Intent: X` is not an intent line |
| IntentExamples.EmptyAnswerExample | CommiTect/Commands/IntentProcessor.cs:98-101 | The empty answer parses to ("Unknown", "") and is shown as `Intent: ` |
| GitService.ExecuteGitCommand | CommitIntentDetector/Commands/GitService.cs:162-208 | The process is killed exactly when it timed out. The output is returned exactly for exit codes 0 and 1. Any other exit code fails with that code and stderr, and a timeout fails with a timeout error |
| GitService.IsGitRepository | CommitIntentDetector/Commands/GitService.cs:17-37 | A file is in a repository exactly when its directory is known and `rev-parse --git-dir` there succeeds with non-blank output; every failure reads as false |
| GitService.NormalizeRoot | CommitIntentDetector/Commands/GitService.cs:47-56 | A blank root gives no root. Otherwise the root has the length of the trimmed output; each `/` of it becomes `\` and every other character is kept, so no `/` remains |
| GitService.WithTrailingSeparator | CommitIntentDetector/Commands/GitService.cs:67-68 | The result ends in a backslash. A root already ending in one is returned unchanged; any other root, the empty one included, gets exactly one backslash appended |
| GitService.RelativePath | CommitIntentDetector/Commands/GitService.cs:60-91 | A relative path never contains a backslash. When the file's absolute path starts with the root and separator, ignoring case, the relative path is the rest with `\` turned into `/` |
| GitService.RelativePathStripsRoot | CommitIntentDetector/Commands/GitService.cs:70-73 | A prefix that differs from the root only in letter case is stripped, and the URI fallback is not consulted |
| GitService.RelativePathUsesForwardSlashes | CommitIntentDetector/Commands/GitService.cs:83-84 | The path handed to git has exactly the slashes of the original, all written as `/` |
| GitService.GetGitDiffWith | CommitIntentDetector/Commands/GitService.cs:39-122 | Whichever reading of the tracked check is used: at most three git calls are made in order (root, tracked check, diff), the last two for the same relative path in the root, and the diff call only after the check passed. No call is made without a directory. A non-empty result comes from a successful diff call and fits in 5 MiB |
| GitService.GetGitDiff | CommitIntentDetector/Commands/GitService.cs:93-106 | As written: a diff call is made only after `ls-files --error-unmatch` did not fail, where exit code 1 counts as not failing |
| GitService.GetGitDiffCorrected | CommitIntentDetector/Commands/GitService.cs:93-106 | With the intended check: a diff call is made only after `ls-files --error-unmatch` exited with 0 |
| GitService.CleanRunReturnsDiff | CommitIntentDetector/Commands/GitService.cs:105-115 | Under either reading of the tracked check, when every step succeeds, the three calls are made and the diff comes back unchanged exactly when it is at most 5 MiB long; otherwise the result is "" |
| GitService.TrackedCheckFailureNotDiffed | CommitIntentDetector/Commands/GitService.cs:93-103 | Under either reading, a tracked check that does not pass ends the run with "" after two calls; the diff command is never run |
| GitService.UntrackedStillDiffedAsWritten | CommitIntentDetector/Commands/GitService.cs:94-115 | As written, when `ls-files` exits with 1 and `diff HEAD` succeeds, the diff call is still made and its output is returned within the size bound; the corrected reading returns "" |
| GitService.UntrackedFileNotDiffed | CommitIntentDetector/Commands/GitService.cs:93-103 | With the corrected check, a file `ls-files` does not report with exit code 0 gives "" and the diff command is never run |
| GitService.NoRootNoDiff | CommitIntentDetector/Commands/GitService.cs:47-52 | When the root query fails or prints only white space, nothing else runs and the result is "" |
| GitService.TrackedCheckAcceptsUntracked | CommitIntentDetector/Commands/GitService.cs:195-199 | The tracked check as written passes git's exit code 1 for an unknown path; the corrected check rejects it, and accepts nothing the original rejects |
| DocumentSaveListener.Initialize | CommitIntentDetector/Commands/DocumentSaveListener.cs:37-43 | Subscribing records the cookie and leaves the pending path and timer alone |
| DocumentSaveListener.Debounce | CommitIntentDetector/Commands/DocumentSaveListener.cs:50-78 | An ineligible save changes nothing and has no effect. An eligible one makes its path pending and disposes the old timer, if any. Its effects are exactly that disposal followed by one more: the start of one fresh timer, which will fire only for a non-negative delay, or a fault for a delay below `Timeout.Infinite`, after which the old timer's slot stays disarmed and nothing else changes. It never launches the pipeline and keeps the listener valid |
| DocumentSaveListener.OnAfterSave | CommitIntentDetector/Commands/DocumentSaveListener.cs:45-81 | A save does something exactly when the extension is enabled, the path is non-empty, the file exists and the filter accepts it; then its path becomes the pending one |
| DocumentSaveListener.OnTimerFired | CommitIntentDetector/Commands/DocumentSaveListener.cs:83-88 | Only the current armed timer's elapse launches the pipeline, once, for the path pending at that moment; any other elapse leaves the listener exactly as it was |
| DocumentSaveListener.Dispose | CommitIntentDetector/Commands/DocumentSaveListener.cs:176-184 | No timer is left armed and the existing timer is disposed. It unsubscribes, with the stored cookie, exactly when the table was attached with a non-zero cookie. Nothing is launched |
| DocumentSaveListener.SaveStepIsOnAfterSave | CommitIntentDetector/Commands/DocumentSaveListener.cs:45-81 | Stepping a genuine save event does exactly what `OnAfterSave` does |
| DocumentSaveListener.StepKeepsValid | CommitIntentDetector/Commands/DocumentSaveListener.cs:45-88 | Every event keeps the listener valid, and any launch is for the pending path |
| DocumentSaveListener.LastSaveWins | CommitIntentDetector/Commands/DocumentSaveListener.cs:75-77 | After a burst of eligible saves nothing has been launched, and the last path is pending behind one armed timer, the last one started |
| DocumentSaveListener.CoalescedSaves | CommitIntentDetector/Commands/DocumentSaveListener.cs:75-92 | A burst of saves followed by the last timer's elapse launches the pipeline exactly once, for the last path; a replaced timer's elapse launches nothing |
| DocumentSaveListener.FiresOnce | CommitIntentDetector/Commands/DocumentSaveListener.cs:77 | A one-shot timer launches nothing on a second elapse |
| DocumentSaveListener.NothingAfterDispose | CommitIntentDetector/Commands/DocumentSaveListener.cs:176-179 | After `Dispose` no timer elapse launches anything |
| DocumentSaveListener.StepKeepsPendingAccepted | CommitIntentDetector/Commands/DocumentSaveListener.cs:67-77 | An armed timer always waits for a path the filter accepts |
| DocumentSaveListener.LaunchedPathsAccepted | CommitIntentDetector/Commands/DocumentSaveListener.cs:68-92 | Over any run of genuine events, every launched path is non-empty and accepted by the filter |
| DocumentSaveListener.LaunchedPipelinesRun | CommitIntentDetector/Commands/DocumentSaveListener.cs:95-99 | A launched pipeline never takes the empty-path exit |
| SavePipeline.Status | CommiTect/Commands/StatusBarService.cs:31-37 | Status text is shown exactly when the status bar option is on |
| SavePipeline.Conclude | CommitIntentDetector/Commands/DocumentSaveListener.cs:140-173 | An exception or a blank intent ends in a cleared status and then exactly one warning with the error's message. Otherwise the intent is handed on as the first effect, and the run ends with the status cleared and no warning |
| SavePipeline.Pipeline | CommitIntentDetector/Commands/DocumentSaveListener.cs:90-174 | The trace is empty exactly for an empty path; otherwise it ends with the status cleared, possibly followed by the only warning. The `Analyzing` status comes first when the status bar is on, and no status text appears when it is off. The service is called exactly in a repository with a non-blank diff, and receives that diff. A warning comes exactly for an exception or a blank intent and carries the prefixed message. An intent is shown only for a usable answer, and it is that answer |
| SavePipeline.ProcessFile | CommitIntentDetector/Commands/DocumentSaveListener.cs:90-174 | An empty path does nothing. Any other run ends with the status cleared, a warning comes only as the last effect, and the service is reached only for a file `GitService` places in a repository |
| SavePipeline.ProcessFileCallsApi | CommitIntentDetector/Commands/DocumentSaveListener.cs:111-137 | The service is called exactly when `GitService` reports a repository and a non-blank diff, and it receives that diff |
| SavePipeline.OutsideRepositoryQuiet | CommitIntentDetector/Commands/DocumentSaveListener.cs:111-116 | Outside a repository the run is the status message and its clearing, nothing else |
| SavePipeline.FailureWarnsOnce | CommitIntentDetector/Commands/DocumentSaveListener.cs:159-173 | A failed or blank answer ends the run with the status cleared, then one warning `Failed to detect commit intent: <message>`; no intent is shown |
| SavePipeline.SuccessShowsIntent | CommitIntentDetector/Commands/DocumentSaveListener.cs:146-157 | A usable answer gives: status, service call, intent shown, `Intent detected!`, a 3000 ms pause, status cleared |

## Left out

- The two `ApiClient` copies: HTTP and JSON plumbing. The service is an abstract function from the diff to an intent or an exception message.
- Process spawning, stream capture and the `Task.WhenAny` race against the 10-second timer. Each invocation is answered by an abstract `ProcessOutcome`. `GitCommandTimeoutMs` records the constant. Captured stdout is taken as given, including the line endings `AppendLine` adds, and kill failures are not observable.
- `Path.GetFullPath`, `Path.GetDirectoryName` and `Uri.MakeRelativeUri` with `Uri.UnescapeDataString`: library path canonicalisation. These are abstract functions that may fail.
- UI rendering: the info bar, its clipboard button, the status bar animation and the message box caption and icons. They appear only as effects in the pipeline trace. The one-line exception is `IntentShown`, which names the intent handed to `ProcessAndDisplayAsync`; the text shown for it is `IntentProcessor.DisplayMessage`.
- Exceptions thrown by the status bar service inside `ProcessFileAsync`. The only errors modelled are the service's and the blank intent's.
- Real time and threading: the debounce delay, the 3-second pause, UI-thread switches and the fire-and-forget task.
- A timer callback already queued when its timer is disposed, whether by `Dispose` or by the replacement of the timer on every eligible save (CommitIntentDetector/Commands/DocumentSaveListener.cs:76). `Timer.Dispose()` does not cancel such a callback, so the claims of `DocumentSaveListener.CoalescedSaves` and `DocumentSaveListener.NothingAfterDispose` that a replaced or disposed timer launches nothing hold only when no callback was queued yet. A pipeline still running when the next one starts is left out too. These are concurrency effects of the host.
- Reading the options: `Options` is passed in. The status bar option is taken as constant during one pipeline run, although `UpdateAsync` rereads it on every call.
- Package registration, the options page and its defaults.
- The `IntentProcessor` and `StatusBarService` copies under CommitIntentDetector are not part of this model. The display rule follows CommiTect/Commands/IntentProcessor.cs, and the status bar option check follows CommiTect/Commands/StatusBarService.cs.
- `Path.GetExtension` throwing on invalid path characters. The filter only sees paths that `File.Exists` has just accepted.
- Null strings are represented by "", which `string.IsNullOrEmpty` and `string.IsNullOrWhiteSpace` treat alike.
- Calling `Dispose` twice calls `Unadvise` again. The model does the same and proves nothing about a second call.
- Text.FoldChar: ordinal case-insensitive comparison is modelled with ASCII letters only. Non-ASCII case pairs compare as different.
- FileFilter.ShouldProcessFile: its own declaration carries no postcondition. What it decides is stated by `FileFilter.ShouldProcessFileMeaning`, which keeps the filter's definition out of the listener's proofs.
- DocumentSaveListener.Debounce: the filter verdict is an input, because a save event carries it. `SaveOf`, `Genuine` and `SaveStepIsOnAfterSave` tie it to `FileFilter.ShouldProcessFile`; the filter is pure, so taking its verdict early changes nothing.
- SavePipeline.ProcessFile: the diff handed on is the one `GitService.GetGitDiff` returns, with the tracked check as written. In the source the diff is requested only inside a repository; the model computes it either way and uses it only then.

## Findings

| source | as written | input that shows it | evidently intended | confidence | as-written member | corrected member |
|---|---|---|---|---|---|---|
| CommitIntentDetector/Commands/GitService.cs:94-103 | The tracked check relies on `ExecuteGitCommandAsync` throwing. That method treats exit code 1 as success, so `ls-files --error-unmatch` never fails for an untracked path | `ls-files --error-unmatch` on a path missing from the index: git exits with 1, and the run goes on to `diff HEAD` | A file git does not track is not diffed: only exit code 0 counts as tracked | medium, not executed (git's documented exit code for an unknown path is 1) | GitService.GetGitDiff | GitService.GetGitDiffCorrected |

`GitService.TrackedCheckAcceptsUntracked` shows the check as written (`GitService.PassesTrackedCheckAsWritten`) passing exit code 1, where the intended one (`GitService.IsTracked`) does not. `GitService.UntrackedStillDiffedAsWritten` shows the consequence. `GitService.GetGitDiff`, as written, goes on to run `diff HEAD` for such a path and returns what it prints. That is not always "": a file removed from the index with `git rm --cached` but still in `HEAD` yields its deletion diff. `GitService.GetGitDiffCorrected` reads the check as intended, and `GitService.UntrackedFileNotDiffed` proves that it never diffs such a file. `SavePipeline.ProcessFile` follows the source and uses the version as written.

=== FILE: document_save_listener.dfy ===
/** `DocumentSaveListener`: a single-slot debouncer fed by save events,
    whose timer launches the pipeline of `SavePipeline`. Time is not
    modelled: a timer elapsing is an event of its own, and every host call
    (the running document table, the file system) is either an abstract
    input or an effect recorded in a trace. */
module DocumentSaveListener {
  import opened Results
  import FileFilter
  import SavePipeline

  /** `Timeout.Infinite`: a due time that never elapses. */
  const Infinite: int := -1

  /** The options page values the listener reads; `GetOptions()` is called
      afresh on every save and every pipeline run. */
  datatype Options = Options(enabled: bool, debounceDelayMs: int, showStatusBar: bool)

  /** A one-shot `System.Threading.Timer`; `armed` says whether its callback
      is still to come (it has not fired, was not disposed, and its due time
      is not `Infinite`). */
  datatype Timer = Timer(id: nat, dueMs: int, armed: bool)

  /** The listener's fields: the pending path, the debounce timer, and the
      running document table subscription (`attached` once `InitializeAsync`
      has run). `nextTimerId` only tells timers apart. */
  datatype Listener = Listener(pending: string, timer: Option<Timer>, nextTimerId: nat, attached: bool, cookie: nat)

  /** A freshly constructed listener. */
  const Fresh: Listener := Listener("", None, 0, false, 0)

  /** What the listener does to the outside world. `SaveFaulted` is the
      `ArgumentOutOfRangeException` the timer constructor throws for a due
      time below `Infinite`; it escapes `OnAfterSave`. */
  datatype ListenerEffect =
    | TimerDisposed(id: nat)
    | TimerStarted(id: nat, dueMs: int)
    | SaveFaulted(dueMs: int)
    | PipelineLaunched(path: string)
    | Unadvised(cookie: nat)

  datatype Transition = Transition(state: Listener, effects: seq<ListenerEffect>)

  /** A save the listener acts on: the extension is enabled, the document has
      a path that exists on disk, and the filter accepted that path. */
  predicate Eligible(options: Options, moniker: string, fileExists: bool, accepted: bool) {
    options.enabled && moniker != "" && fileExists && accepted
  }

  /** What holds between events: the current timer is the newest one, and a
      timer still to fire has a path waiting for it and a finite due time. */
  predicate Valid(l: Listener) {
    && (l.timer.Some? ==> l.timer.value.id < l.nextTimerId)
    && (l.timer.Some? && l.timer.value.armed ==> l.pending != "" && l.timer.value.dueMs >= 0)
  }

  predicate NoLaunch(effects: seq<ListenerEffect>) {
    forall i :: 0 <= i < |effects| ==> !effects[i].PipelineLaunched?
  }

  /** The timer slot after `Dispose()` has been called on whatever it holds. */
  function Disarmed(timer: Option<Timer>): (r: Option<Timer>)
    ensures r.Some? <==> timer.Some?
    ensures r.Some? ==> r.value.id == timer.value.id && !r.value.armed
  {
    match timer
    case None => None
    case Some(t) => Some(t.(armed := false))
  }

  /** `_debounceTimer?.Dispose()` */
  function DisposeTimer(timer: Option<Timer>): (effects: seq<ListenerEffect>)
    ensures timer.None? ==> effects == []
    ensures timer.Some? ==> effects == [TimerDisposed(timer.value.id)]
  {
    if timer.Some? then [TimerDisposed(timer.value.id)] else []
  }

  /** `InitializeAsync`: subscribe to the running document table. */
  function Initialize(l: Listener, cookie: nat): (r: Listener)
    ensures r.attached && r.cookie == cookie
    ensures r.pending == l.pending && r.timer == l.timer && r.nextTimerId == l.nextTimerId
  {
    l.(attached := true, cookie := cookie)
  }

  /** The body of `OnAfterSave` once the filter has given its verdict
      `accepted` on `moniker`: an ineligible save changes nothing; an eligible
      one makes its path the pending one and replaces the timer by a new
      one-shot timer due after the debounce delay. */
  function Debounce(l: Listener, options: Options, moniker: string, fileExists: bool, accepted: bool): (t: Transition)
    ensures !Eligible(options, moniker, fileExists, accepted) ==> t == Transition(l, [])
    ensures Eligible(options, moniker, fileExists, accepted) ==>
      && t.state.pending == moniker
      && (l.timer.Some? ==> TimerDisposed(l.timer.value.id) in t.effects)
      && (t.state.timer.Some? && t.state.timer.value.armed <==> options.debounceDelayMs >= 0)
    ensures Eligible(options, moniker, fileExists, accepted) && options.debounceDelayMs >= Infinite ==>
      && t.state.timer == Some(Timer(l.nextTimerId, options.debounceDelayMs, options.debounceDelayMs != Infinite))
      && TimerStarted(l.nextTimerId, options.debounceDelayMs) in t.effects
      && t.state.nextTimerId == l.nextTimerId + 1
    ensures Eligible(options, moniker, fileExists, accepted) && options.debounceDelayMs < Infinite ==>
      SaveFaulted(options.debounceDelayMs) in t.effects
    ensures Eligible(options, moniker, fileExists, accepted) ==>
      t.effects == DisposeTimer(l.timer) +
        [if options.debounceDelayMs < Infinite then SaveFaulted(options.debounceDelayMs)
         else TimerStarted(l.nextTimerId, options.debounceDelayMs)]
    ensures Eligible(options, moniker, fileExists, accepted) && options.debounceDelayMs < Infinite ==>
      t.state == l.(pending := moniker, timer := Disarmed(l.timer))
    ensures NoLaunch(t.effects)
    ensures t.state.attached == l.attached && t.state.cookie == l.cookie
    ensures Valid(l) ==> Valid(t.state)
  {
    if !Eligible(options, moniker, fileExists, accepted) then Transition(l, [])
    else
      var disposed := DisposeTimer(l.timer);
      if options.debounceDelayMs < Infinite then
        Transition(l.(pending := moniker, timer := Disarmed(l.timer)), disposed + [SaveFaulted(options.debounceDelayMs)])
      else
        var timer := Timer(l.nextTimerId, options.debounceDelayMs, options.debounceDelayMs != Infinite);
        Transition(l.(pending := moniker, timer := Some(timer), nextTimerId := l.nextTimerId + 1),
                   disposed + [TimerStarted(timer.id, timer.dueMs)])
  }

  /** `OnAfterSave`: the save of `moniker` is debounced exactly when the
      extension is enabled, the path is non-empty, the file exists and
      `FileFilter.ShouldProcessFile` accepts it. */
  function OnAfterSave(l: Listener, options: Options, moniker: string, fileExists: bool): (t: Transition)
    ensures t.effects == [] && t.state == l <==>
      !(options.enabled && moniker != "" && fileExists && FileFilter.ShouldProcessFile(moniker))
    ensures t.state.pending == (if t.effects == [] then l.pending else moniker)
  {
    Debounce(l, options, moniker, fileExists, FileFilter.ShouldProcessFile(moniker))
  }

  /** `ProcessFileCallback`: timer `id` elapses. Only the current, armed
      timer has a callback to run, and it launches the pipeline on the path
      pending at that moment. */
  function OnTimerFired(l: Listener, id: nat): (t: Transition)
    ensures |t.effects| <= 1
    ensures t.effects != [] <==> l.timer.Some? && l.timer.value.id == id && l.timer.value.armed
    ensures t.effects != [] ==> t.effects[0] == PipelineLaunched(l.pending)
    ensures t.state.pending == l.pending && t.state.attached == l.attached && t.state.cookie == l.cookie
    ensures t.state.timer.Some? ==> !t.state.timer.value.armed || t.effects == []
    ensures t.effects == [] ==> t.state == l
    ensures Valid(l) ==> Valid(t.state)
  {
    if l.timer.Some? && l.timer.value.id == id && l.timer.value.armed then
      Transition(l.(timer := Disarmed(l.timer)), [PipelineLaunched(l.pending)])
    else Transition(l, [])
  }

  /** `Dispose`: dispose the timer if there is one, and unsubscribe only when
      the table was attached with a non-zero cookie. */
  function Dispose(l: Listener): (t: Transition)
    ensures t.state.timer.Some? ==> !t.state.timer.value.armed
    ensures l.timer.Some? ==> TimerDisposed(l.timer.value.id) in t.effects
    ensures forall c :: Unadvised(c) in t.effects <==> l.attached && l.cookie != 0 && c == l.cookie
    ensures NoLaunch(t.effects)
    ensures Valid(l) ==> Valid(t.state)
  {
    Transition(l.(timer := Disarmed(l.timer)),
               DisposeTimer(l.timer) + (if l.attached && l.cookie != 0 then [Unadvised(l.cookie)] else []))
  }

  /** What can happen to the listener. A save carries the host's answers
      (the document's path and whether the file exists) and the verdict
      `accepted` of the file filter on that path. */
  datatype Event =
    | Attached(cookie: nat)
    | Saved(options: Options, moniker: string, fileExists: bool, accepted: bool)
    | Fired(timerId: nat)
    | Disposed

  /** The save event for a document: the filter is a pure function of the
      path, so its verdict can be taken when the event is built. */
  function SaveOf(options: Options, moniker: string, fileExists: bool): (e: Event)
    ensures e.Saved? && e.options == options && e.moniker == moniker && e.fileExists == fileExists
    ensures e.accepted <==> FileFilter.ShouldProcessFile(moniker)
  {
    Saved(options, moniker, fileExists, FileFilter.ShouldProcessFile(moniker))
  }

  /** An event whose filter verdict is the filter's actual answer. */
  predicate Genuine(e: Event) {
    e.Saved? ==> e.accepted == FileFilter.ShouldProcessFile(e.moniker)
  }

  function Step(l: Listener, e: Event): Transition {
    match e
    case Attached(cookie) => Transition(Initialize(l, cookie), [])
    case Saved(options, moniker, fileExists, accepted) => Debounce(l, options, moniker, fileExists, accepted)
    case Fired(id) => OnTimerFired(l, id)
    case Disposed => Dispose(l)
  }

  /** A genuine save event does exactly what `OnAfterSave` does. */
  lemma SaveStepIsOnAfterSave(l: Listener, options: Options, moniker: string, fileExists: bool)
    ensures Step(l, SaveOf(options, moniker, fileExists)) == OnAfterSave(l, options, moniker, fileExists)
    ensures Genuine(SaveOf(options, moniker, fileExists))
  {
  }

  /** Every event keeps the listener valid, and a launch is for the pending
      path. */
  lemma StepKeepsValid(l: Listener, e: Event)
    requires Valid(l)
    ensures Valid(Step(l, e).state)
    ensures forall i :: 0 <= i < |Launches(Step(l, e).effects)| ==> Launches(Step(l, e).effects)[i] == l.pending
  {
  }

  /** A step function folded over a sequence of events: the final state,
      with every effect in order. */
  function RunWith(step: (Listener, Event) -> Transition, l: Listener, events: seq<Event>): Transition
    decreases |events|
  {
    if events == [] then Transition(l, [])
    else
      var first := step(l, events[0]);
      var rest := RunWith(step, first.state, events[1..]);
      Transition(rest.state, first.effects + rest.effects)
  }

  /** The listener after a sequence of events. */
  function Run(l: Listener, events: seq<Event>): Transition {
    RunWith(Step, l, events)
  }

  /** Running two sequences of events one after the other is running their
      concatenation. */
  lemma {:induction false} RunWithAppend(step: (Listener, Event) -> Transition, l: Listener, a: seq<Event>, b: seq<Event>)
    ensures RunWith(step, l, a + b).state == RunWith(step, RunWith(step, l, a).state, b).state
    ensures RunWith(step, l, a + b).effects == RunWith(step, l, a).effects + RunWith(step, RunWith(step, l, a).state, b).effects
    decreases |a|
  {
    if a == [] {
      assert a + b == b;
    } else {
      var ab := a + b;
      assert ab != [] && ab[0] == a[0];
      assert ab[1..] == a[1..] + b;
      var first := step(l, a[0]);
      RunWithAppend(step, first.state, a[1..], b);
      var restA := RunWith(step, first.state, a[1..]);
      var restAB := RunWith(step, first.state, a[1..] + b);
      assert RunWith(step, l, ab) == Transition(restAB.state, first.effects + restAB.effects);
      assert RunWith(step, l, a) == Transition(restA.state, first.effects + restA.effects);
      assert first.effects + restAB.effects == (first.effects + restA.effects) + RunWith(step, restA.state, b).effects;
    }
  }

  /** Running a single event is taking one step. */
  lemma RunOne(l: Listener, e: Event)
    ensures Run(l, [e]) == Step(l, e)
  {
    assert [e][1..] == [];
    assert RunWith(Step, Step(l, e).state, []) == Transition(Step(l, e).state, []);
    assert Step(l, e).effects + [] == Step(l, e).effects;
  }

  /** The paths of the pipelines a trace launched, in order. */
  function Launches(effects: seq<ListenerEffect>): (paths: seq<string>)
    ensures NoLaunch(effects) ==> paths == []
    ensures |paths| <= |effects|
  {
    if effects == [] then []
    else (if effects[0].PipelineLaunched? then [effects[0].path] else []) + Launches(effects[1..])
  }

  lemma {:induction false} LaunchesAppend(a: seq<ListenerEffect>, b: seq<ListenerEffect>)
    ensures Launches(a + b) == Launches(a) + Launches(b)
    decreases |a|
  {
    if a == [] {
      assert a + b == b;
    } else {
      var ab := a + b;
      assert ab != [] && ab[0] == a[0];
      assert ab[1..] == a[1..] + b;
      LaunchesAppend(a[1..], b);
      var head: seq<string> := if a[0].PipelineLaunched? then [a[0].path] else [];
      assert Launches(ab) == head + Launches(a[1..] + b);
      assert Launches(a) == head + Launches(a[1..]);
    }
  }

  /** A save of an accepted, existing file with a finite, non-negative
      debounce delay while the extension is enabled. */
  predicate EligibleSave(e: Event) {
    e.Saved? && Eligible(e.options, e.moniker, e.fileExists, e.accepted) && e.options.debounceDelayMs >= 0
  }

  predicate EligibleSaves(events: seq<Event>) {
    forall i :: 0 <= i < |events| ==> EligibleSave(events[i])
  }

  /** One eligible save: its path is pending behind a fresh armed timer, and
      nothing is launched. */
  lemma EligibleSaveStep(l: Listener, e: Event)
    requires EligibleSave(e)
    ensures Step(l, e).state.pending == e.moniker
    ensures Step(l, e).state.timer == Some(Timer(l.nextTimerId, e.options.debounceDelayMs, true))
    ensures Step(l, e).state.nextTimerId == l.nextTimerId + 1
    ensures Launches(Step(l, e).effects) == []
  {
  }

  /** The listener state a burst of eligible saves leaves behind: `path`
      pending behind the armed timer number `id`, nothing launched. */
  predicate AfterBurst(t: Transition, path: string, id: nat, dueMs: int) {
    && Launches(t.effects) == []
    && t.state.pending == path
    && t.state.timer == Some(Timer(id, dueMs, true))
    && t.state.nextTimerId == id + 1
  }

  /** One more eligible save after a run that launched nothing extends the
      burst. */
  lemma SaveAfterRun(l: Listener, init: seq<Event>, last: Event)
    requires EligibleSave(last)
    requires Launches(Run(l, init).effects) == []
    ensures AfterBurst(Run(l, init + [last]), last.moniker, Run(l, init).state.nextTimerId, last.options.debounceDelayMs)
  {
    var mid := Run(l, init);
    var step := Step(mid.state, last);
    assert Run(l, init + [last]) == Transition(step.state, mid.effects + step.effects) by {
      RunWithAppend(Step, l, init, [last]);
      RunOne(mid.state, last);
    }
    EligibleSaveStep(mid.state, last);
    LaunchesAppend(mid.effects, step.effects);
  }

  /** A burst of eligible saves launches nothing and leaves the last path
      pending behind exactly one armed timer, the last one started. */
  lemma {:induction false} LastSaveWins(l: Listener, saves: seq<Event>)
    requires saves != [] && EligibleSaves(saves)
    ensures AfterBurst(Run(l, saves), saves[|saves| - 1].moniker, l.nextTimerId + |saves| - 1,
                       saves[|saves| - 1].options.debounceDelayMs)
    decreases |saves|
  {
    var last := saves[|saves| - 1];
    var init := saves[..|saves| - 1];
    if |saves| == 1 {
      assert init == [];
      assert Run(l, init) == Transition(l, []);
    } else {
      assert EligibleSaves(init) by {
        forall i | 0 <= i < |init| ensures init[i] == saves[i] { }
      }
      LastSaveWins(l, init);
    }
    SaveAfterRun(l, init, last);
    assert init + [last] == saves;
  }

  /** Debouncing: however many eligible saves come before the timer fires,
      the pipeline is launched once, for the last path saved; a timer the
      burst replaced launches nothing. */
  lemma CoalescedSaves(l: Listener, saves: seq<Event>, id: nat)
    requires saves != [] && EligibleSaves(saves)
    ensures id == l.nextTimerId + |saves| - 1 ==>
      Launches(Run(l, saves + [Fired(id)]).effects) == [saves[|saves| - 1].moniker]
    ensures id != l.nextTimerId + |saves| - 1 ==>
      Launches(Run(l, saves + [Fired(id)]).effects) == []
  {
    var mid := Run(l, saves);
    var fire := OnTimerFired(mid.state, id);
    assert Run(l, saves + [Fired(id)]).effects == mid.effects + fire.effects by {
      RunWithAppend(Step, l, saves, [Fired(id)]);
      RunOne(mid.state, Fired(id));
    }
    LastSaveWins(l, saves);
    LaunchesAppend(mid.effects, fire.effects);
  }

  /** A timer fires at most once: its second elapse has nothing to run. */
  lemma FiresOnce(l: Listener, id: nat)
    ensures OnTimerFired(OnTimerFired(l, id).state, id).effects == []
  {
  }

  /** After `Dispose` no timer callback is pending, so later elapses launch
      nothing. */
  lemma NothingAfterDispose(l: Listener, id: nat)
    ensures OnTimerFired(Dispose(l).state, id).effects == []
  {
  }

  /** An armed timer waits for a path the filter accepts. */
  predicate PendingAccepted(l: Listener) {
    l.timer.Some? && l.timer.value.armed ==> FileFilter.ShouldProcessFile(l.pending)
  }

  lemma StepKeepsPendingAccepted(l: Listener, e: Event)
    requires PendingAccepted(l) && Genuine(e)
    ensures PendingAccepted(Step(l, e).state)
  {
  }

  /** From a valid state, with genuine filter verdicts, the pipeline is only
      ever launched for a non-empty path the filter accepts; its own
      empty-path exit is a guard that such runs never take. */
  lemma {:induction false} LaunchedPathsAccepted(l: Listener, events: seq<Event>)
    requires Valid(l) && PendingAccepted(l)
    requires forall i :: 0 <= i < |events| ==> Genuine(events[i])
    ensures forall i :: 0 <= i < |Launches(Run(l, events).effects)| ==>
      var path := Launches(Run(l, events).effects)[i];
      path != "" && FileFilter.ShouldProcessFile(path)
    decreases |events|
  {
    if events != [] {
      var first := Step(l, events[0]);
      StepKeepsValid(l, events[0]);
      StepKeepsPendingAccepted(l, events[0]);
      LaunchedPathsAccepted(first.state, events[1..]);
      var rest := Run(first.state, events[1..]);
      assert Run(l, events) == Transition(rest.state, first.effects + rest.effects);
      LaunchesAppend(first.effects, rest.effects);
    }
  }

  /** Every pipeline the listener launches gets past the empty-path exit of
      `ProcessFileAsync`, whatever git and the service answer. */
  lemma LaunchedPipelinesRun(l: Listener, events: seq<Event>, i: int, showStatusBar: bool, env: SavePipeline.Environment)
    requires Valid(l) && PendingAccepted(l)
    requires forall k :: 0 <= k < |events| ==> Genuine(events[k])
    requires 0 <= i < |Launches(Run(l, events).effects)|
    ensures SavePipeline.ProcessFile(Launches(Run(l, events).effects)[i], showStatusBar, env) != []
  {
    LaunchedPathsAccepted(l, events);
  }
}

=== FILE: file_filter.dfy ===
/** Which saved files are worth analysing: a pure predicate over the path
    (CommitIntentDetector/Commands/FileFilter.cs). */
module FileFilter {
  import opened Text

  /** Extensions of binary, media, archive and build-artifact files. */
  const BinaryFileExtensions: seq<string> := [
    ".png", ".jpg", ".jpeg", ".gif", ".bmp", ".ico", ".svg",
    ".pdf", ".zip", ".tar", ".gz", ".7z", ".rar",
    ".exe", ".dll", ".so", ".dylib",
    ".mp3", ".mp4", ".avi", ".mov", ".wmv",
    ".woff", ".woff2", ".ttf", ".eot",
    ".bin", ".dat", ".db", ".sqlite"
  ]

  /** Directory segments, each bounded by a backslash on both sides. */
  const IgnorePatterns: seq<string> := [
    "\\node_modules\\",
    "\\.git\\",
    "\\.vs\\",
    "\\dist\\",
    "\\build\\",
    "\\.next\\",
    "\\coverage\\",
    "\\.nyc_output\\",
    "\\bin\\",
    "\\obj\\",
    "\\packages\\"
  ]

  /** The characters at which `Path.GetExtension` stops scanning backwards:
      the directory separator, the alternative separator and the volume separator. */
  predicate IsPathSeparator(c: char) {
    c == '\\' || c == '/' || c == ':'
  }

  /** A character that ends the backward scan for an extension. */
  predicate StopsScan(c: char) {
    c == '.' || IsPathSeparator(c)
  }

  /** No character strictly between `k` and `end` ends the scan. */
  predicate ClearAfter(p: string, k: int, end: int)
    requires -1 <= k && 0 <= end <= |p|
  {
    forall j :: k < j < end ==> !StopsScan(p[j])
  }

  /** `p[k..]` is the extension of `p`: a dot that is not the last character,
      followed by no other dot and no separator. */
  predicate IsExtensionAt(p: string, k: int) {
    0 <= k < |p| - 1 && p[k] == '.' && ClearAfter(p, k, |p|)
  }

  /** Scanning backwards from position `i` (exclusive): the index of the first
      dot met before any separator, if there is one. */
  function LastDotBefore(p: string, i: nat): (r: int)
    requires i <= |p|
    ensures -1 <= r < i
    ensures r >= 0 ==> p[r] == '.' && ClearAfter(p, r, i)
    ensures r == -1 ==> forall k :: 0 <= k < i && p[k] == '.' ==> !ClearAfter(p, k, i)
  {
    if i == 0 then -1
    else if p[i - 1] == '.' then i - 1
    else if IsPathSeparator(p[i - 1]) then -1
    else LastDotBefore(p, i - 1)
  }

  /** `Path.GetExtension`: the extension with its dot, or "" when the last
      name has no dot or ends in one. */
  function GetExtension(p: string): (e: string)
    ensures e != "" <==> exists k :: IsExtensionAt(p, k)
    ensures forall k :: IsExtensionAt(p, k) ==> e == p[k..]
  {
    var k := LastDotBefore(p, |p|);
    if k >= 0 && k != |p| - 1 then
      assert IsExtensionAt(p, k);
      assert forall k' :: IsExtensionAt(p, k') ==> k' == k by {
        forall k' | IsExtensionAt(p, k') ensures k' == k {
          if k' < k {
            assert StopsScan(p[k]);
          } else if k' > k {
            assert StopsScan(p[k']);
          }
        }
      }
      p[k..]
    else
      assert forall k' :: !IsExtensionAt(p, k') by {
        if k == |p| - 1 && k >= 0 {
          forall k' | IsExtensionAt(p, k') ensures false {
            assert StopsScan(p[|p| - 1]);
          }
        }
      }
      ""
  }

  /** `BinaryFileExtensions.Contains(e)` with an ordinal case-insensitive comparer. */
  predicate IsBinaryExtension(e: string) {
    exists j :: 0 <= j < |BinaryFileExtensions| && Fold(e) == Fold(BinaryFileExtensions[j])
  }

  /** Forward slashes turned into backslashes. */
  function NormalizeSeparators(p: string): string {
    Replace(p, '/', '\\')
  }

  /** Some ignore pattern occurs, ignoring case, somewhere in the normalized path. */
  ghost predicate HitsIgnorePattern(p: string) {
    exists j, i :: 0 <= j < |IgnorePatterns| && MatchesAt(NormalizeSeparators(p), IgnorePatterns[j], i)
  }

  /** The path has an extension that is on the deny list. */
  ghost predicate HasBinaryExtension(p: string) {
    exists k :: IsExtensionAt(p, k) && IsBinaryExtension(p[k..])
  }

  /** `FileFilter.ShouldProcessFile`; what it decides is stated by
      `ShouldProcessFileMeaning`. */
  predicate ShouldProcessFile(path: string) {
    if path == "" then false
    else if IsBinaryExtension(GetExtension(path)) then false
    else
      var normalized := NormalizeSeparators(path);
      if exists j :: 0 <= j < |IgnorePatterns| && IndexOfIgnoreCase(normalized, IgnorePatterns[j], 0) >= 0 then
        false
      else
        true
  }

  /** A path is processed exactly when it is non-empty, its extension is not
      deny-listed and it contains no ignored directory segment. */
  lemma ShouldProcessFileMeaning(path: string)
    ensures ShouldProcessFile(path) <==> path != "" && !HasBinaryExtension(path) && !HitsIgnorePattern(path)
  {
    if path != "" {
      var normalized := NormalizeSeparators(path);
      if HitsIgnorePattern(path) {
        var j, i :| 0 <= j < |IgnorePatterns| && MatchesAt(normalized, IgnorePatterns[j], i);
        assert IndexOfIgnoreCase(normalized, IgnorePatterns[j], 0) >= 0;
      }
    }
  }

  /** The path as the filter sees it: separators unified and letters folded. */
  function Canonical(p: string): string {
    Fold(NormalizeSeparators(p))
  }

  lemma CanonicalChar(p: string, q: string, i: int)
    requires Canonical(p) == Canonical(q) && 0 <= i < |p|
    ensures |q| == |p|
    ensures p[i] == '.' <==> q[i] == '.'
    ensures StopsScan(p[i]) <==> StopsScan(q[i])
    ensures !StopsScan(p[i]) ==> FoldChar(p[i]) == FoldChar(q[i])
  {
    assert Canonical(p)[i] == Canonical(q)[i];
  }

  lemma FoldSlice(s: string, i: int, j: int)
    requires 0 <= i <= j <= |s|
    ensures Fold(s[i..j]) == Fold(s)[i..j]
  {
  }

  /** The verdict depends only on the path's canonical form. */
  lemma SameCanonicalSameVerdict(p: string, q: string)
    requires Canonical(p) == Canonical(q)
    ensures ShouldProcessFile(p) == ShouldProcessFile(q)
  {
    assert |p| == |q| by {
      assert |Canonical(p)| == |p| && |Canonical(q)| == |q|;
    }
    forall k | 0 <= k < |p| - 1
      ensures IsExtensionAt(p, k) <==> IsExtensionAt(q, k)
      ensures IsExtensionAt(p, k) ==> (IsBinaryExtension(p[k..]) <==> IsBinaryExtension(q[k..]))
    {
      CanonicalChar(p, q, k);
      forall j | k < j < |p| ensures StopsScan(p[j]) <==> StopsScan(q[j]) {
        CanonicalChar(p, q, j);
      }
      if IsExtensionAt(p, k) {
        forall j | k <= j < |p| ensures FoldChar(p[j]) == FoldChar(q[j]) {
          CanonicalChar(p, q, j);
        }
        assert Fold(p[k..]) == Fold(q[k..]);
      }
    }
    assert HasBinaryExtension(p) <==> HasBinaryExtension(q);
    forall j, i | 0 <= j < |IgnorePatterns|
      ensures MatchesAt(NormalizeSeparators(p), IgnorePatterns[j], i)
          <==> MatchesAt(NormalizeSeparators(q), IgnorePatterns[j], i)
    {
      var n := |IgnorePatterns[j]|;
      if 0 <= i && i + n <= |p| {
        FoldSlice(NormalizeSeparators(p), i, i + n);
        FoldSlice(NormalizeSeparators(q), i, i + n);
      }
    }
    assert HitsIgnorePattern(p) <==> HitsIgnorePattern(q);
  }

  /** Slash style does not matter: `a/b` and `a\b` get the same verdict. */
  lemma SlashStyleIrrelevant(p: string)
    ensures ShouldProcessFile(NormalizeSeparators(p)) == ShouldProcessFile(p)
  {
    assert NormalizeSeparators(NormalizeSeparators(p)) == NormalizeSeparators(p);
    SameCanonicalSameVerdict(NormalizeSeparators(p), p);
  }

  /** Letter case does not matter. */
  lemma CaseIrrelevant(p: string)
    ensures ShouldProcessFile(Fold(p)) == ShouldProcessFile(p)
  {
    assert Canonical(Fold(p)) == Canonical(p);
    SameCanonicalSameVerdict(Fold(p), p);
  }

  /** Every deny-listed extension is a dot followed by characters that, once
      folded, do not stop the backward extension scan. */
  lemma BinaryExtensionShape(j: int)
    requires 0 <= j < |BinaryFileExtensions|
    ensures var e := BinaryFileExtensions[j];
      |e| >= 2 && e[0] == '.' && forall m :: 1 <= m < |e| ==> !StopsScan(FoldChar(e[m]))
  {
  }

  /** A path ending in a deny-listed extension, in any letter case, is rejected. */
  lemma BinaryExtensionRejected(stem: string, ext: string, j: int)
    requires 0 <= j < |BinaryFileExtensions|
    requires Fold(ext) == Fold(BinaryFileExtensions[j])
    ensures !ShouldProcessFile(stem + ext)
  {
    var e := BinaryFileExtensions[j];
    var p := stem + ext;
    BinaryExtensionShape(j);
    assert |ext| == |e|;
    assert FoldChar(ext[0]) == FoldChar(e[0]);
    forall m | |stem| < m < |p| ensures !StopsScan(p[m]) {
      assert p[m] == ext[m - |stem|];
      assert FoldChar(ext[m - |stem|]) == FoldChar(e[m - |stem|]);
    }
    assert IsExtensionAt(p, |stem|);
    assert p[|stem|..] == ext;
    assert HasBinaryExtension(p);
  }

  /** A path containing an ignored directory segment, written with either
      slash and in any letter case, is rejected whatever its extension. */
  lemma IgnoredSegmentRejected(before: string, segment: string, after: string, j: int)
    requires 0 <= j < |IgnorePatterns|
    requires Canonical(segment) == Fold(IgnorePatterns[j])
    ensures !ShouldProcessFile(before + segment + after)
  {
    var p := before + segment + after;
    var n := NormalizeSeparators(p);
    var pat := IgnorePatterns[j];
    assert |segment| == |pat| by {
      assert |Canonical(segment)| == |segment|;
    }
    assert n[|before|..|before| + |pat|] == NormalizeSeparators(segment);
    assert MatchesAt(n, pat, |before|);
    assert HitsIgnorePattern(p);
  }

  /** Every ignore pattern starts and ends with a backslash. */
  lemma IgnorePatternShape(j: int)
    requires 0 <= j < |IgnorePatterns|
    ensures var pat := IgnorePatterns[j];
      |pat| >= 2 && pat[0] == '\\' && pat[|pat| - 1] == '\\'
  {
  }

  predicate IsSlash(c: char) {
    c == '\\' || c == '/'
  }

  /** A path with at most one slash of either kind never hits an ignore
      pattern, since every pattern needs a separator on both sides. */
  lemma FewSlashesNeverIgnored(p: string)
    requires forall a, b :: 0 <= a < b < |p| && IsSlash(p[a]) ==> !IsSlash(p[b])
    ensures !HitsIgnorePattern(p)
  {
    var n := NormalizeSeparators(p);
    forall j, i | 0 <= j < |IgnorePatterns| ensures !MatchesAt(n, IgnorePatterns[j], i) {
      var pat := IgnorePatterns[j];
      IgnorePatternShape(j);
    }
  }

  /** Patterns carry a separator on both sides: a segment at the very start
      of the path, with nothing before it, does not match. */
  lemma LeadingSegmentNotIgnored()
    ensures ShouldProcessFile("node_modules\\index.js")
  {
    var p := "node_modules\\index.js";
    assert IsExtensionAt(p, 18);
    assert p[18..] == ".js";
    forall j | 0 <= j < |BinaryFileExtensions| ensures Fold(".js") != Fold(BinaryFileExtensions[j]) {
      var e := BinaryFileExtensions[j];
      assert |e| != 3 || e[1] != 'j';
      if |e| == 3 { assert Fold(".js")[1] != Fold(e)[1]; }
    }
    FewSlashesNeverIgnored(p);
  }

  /** An ordinary source file is processed. */
  lemma PlainSourceFileAccepted()
    ensures ShouldProcessFile("src\\main.ts")
  {
    var p := "src\\main.ts";
    assert IsExtensionAt(p, 8);
    assert p[8..] == ".ts";
    forall j | 0 <= j < |BinaryFileExtensions| ensures Fold(".ts") != Fold(BinaryFileExtensions[j]) {
      var e := BinaryFileExtensions[j];
      assert |e| != 3 || e[1] != 't';
      if |e| == 3 { assert Fold(".ts")[1] != Fold(e)[1]; }
    }
    FewSlashesNeverIgnored(p);
  }

  lemma EmptyPathRejected()
    ensures !ShouldProcessFile("")
  {
  }

  lemma UpperCaseImageRejected()
    ensures !ShouldProcessFile("logo.PNG")
  {
    assert "logo.PNG" == "logo" + ".PNG";
    assert Fold(".PNG") == Fold(BinaryFileExtensions[0]);
    BinaryExtensionRejected("logo", ".PNG", 0);
  }

  lemma DependencyDirectoryRejected()
    ensures !ShouldProcessFile("C:/repo/node_modules/x.js")
  {
    assert "C:/repo/node_modules/x.js" == "C:/repo" + "/node_modules/" + "x.js";
    assert IgnorePatterns[0] == "\\node_modules\\";
    assert Canonical("/node_modules/") == Fold("\\node_modules\\");
    IgnoredSegmentRejected("C:/repo", "/node_modules/", "x.js", 0);
  }
}

=== FILE: git_service.dfy ===
/** The decisions `GitService` takes around the git processes it starts
    (CommitIntentDetector/Commands/GitService.cs). Starting a process, reading
    its streams and racing it against a timer are not modelled: each
    invocation is answered by an abstract `ProcessOutcome`. */
module GitService {
  import opened Results
  import opened Text

  /** Diffs longer than 5 MiB, counted in UTF-16 code units, are dropped. */
  const MaxDiffSize: nat := 5 * 1024 * 1024

  /** Milliseconds a git process may run before it is killed. */
  const GitCommandTimeoutMs: nat := 10000

  /** `Path.DirectorySeparatorChar` on Windows. */
  const DirectorySeparator: char := '\\'

  /** The four git command lines the extension issues. */
  datatype GitCommand =
    | RevParseGitDir                        // rev-parse --git-dir
    | RevParseShowToplevel                  // rev-parse --show-toplevel
    | LsFilesErrorUnmatch(path: string)     // ls-files --error-unmatch "<path>"
    | DiffHead(path: string)                // diff HEAD -- "<path>"

  datatype Invocation = Invocation(command: GitCommand, workingDirectory: string)

  /** How a started git process ended, as far as the extension can observe:
      it exited with captured output, it outlived the timeout, or it could not
      be started at all. */
  datatype ProcessOutcome =
    | Exited(exitCode: int, stdout: string, stderr: string)
    | TimedOut
    | StartFailed(reason: string)

  /** The exceptions `ExecuteGitCommandAsync` throws. */
  datatype GitError =
    | Timeout
    | CommandFailed(exitCode: int, stderr: string)
    | LaunchFailed(reason: string)

  /** The result of one invocation, and whether the process had to be killed. */
  datatype Execution = Execution(result: Result<string, GitError>, killed: bool)

  /** The library path functions the service calls, left abstract:
      `Path.GetDirectoryName` and `Path.GetFullPath` (None when they throw; a
      null directory is ""), and the relative URI from a base directory to a
      file, unescaped (None when building either URI throws). */
  datatype PathFunctions = PathFunctions(
    directoryName: string -> Option<string>,
    fullPath: string -> Option<string>,
    relativeUri: (string, string) -> Option<string>)

  /** `ExecuteGitCommandAsync` once the process has ended or timed out:
      exit code 0 or 1 yields the captured output, any other exit code and a
      timeout are errors, and a timed-out process is killed. */
  function ExecuteGitCommand(outcome: ProcessOutcome): (e: Execution)
    ensures e.killed <==> outcome.TimedOut?
    ensures e.result.Success? <==> outcome.Exited? && (outcome.exitCode == 0 || outcome.exitCode == 1)
    ensures e.result.Success? ==> e.result.value == outcome.stdout
    ensures outcome.Exited? && e.result.Failure? ==>
      e.result.error == CommandFailed(outcome.exitCode, outcome.stderr)
    ensures outcome.TimedOut? ==> e.result == Failure(Timeout)
  {
    match outcome
    case TimedOut => Execution(Failure(Timeout), true)
    case StartFailed(reason) => Execution(Failure(LaunchFailed(reason)), false)
    case Exited(code, stdout, stderr) =>
      if code == 0 || code == 1 then Execution(Success(stdout), false)
      else Execution(Failure(CommandFailed(code, stderr)), false)
  }

  /** The invocation succeeded and printed something other than white space. */
  predicate SucceededWithOutput(outcome: ProcessOutcome) {
    outcome.Exited? && (outcome.exitCode == 0 || outcome.exitCode == 1) && !IsBlank(outcome.stdout)
  }

  /** `IsGitRepositoryAsync`: `rev-parse --git-dir` in the file's directory
      succeeded with non-blank output; every failure reads as "no". */
  function IsGitRepository(file: string, paths: PathFunctions, git: Invocation -> ProcessOutcome): (r: bool)
    ensures r <==> (paths.directoryName(file).Some?
      && SucceededWithOutput(git(Invocation(RevParseGitDir, paths.directoryName(file).value))))
  {
    match paths.directoryName(file)
    case None => false
    case Some(directory) =>
      match ExecuteGitCommand(git(Invocation(RevParseGitDir, directory))).result
      case Success(output) => !IsBlank(output)
      case Failure(_) => false
  }

  /** The repository root printed by `rev-parse --show-toplevel`, trimmed and
      with native separators; None when the output is blank. */
  function NormalizeRoot(output: string): (root: Option<string>)
    ensures root.None? <==> IsBlank(output)
    ensures root.Some? ==> root.value != "" && '/' !in root.value
    ensures root.Some? ==> |root.value| == |Trim(output)|
    ensures root.Some? ==>
      forall i :: 0 <= i < |root.value| && Trim(output)[i] != '/' ==> root.value[i] == Trim(output)[i]
    ensures root.Some? ==>
      forall i :: 0 <= i < |root.value| && Trim(output)[i] == '/' ==> root.value[i] == DirectorySeparator
  {
    if IsBlank(output) then None
    else Some(Replace(Trim(output), '/', DirectorySeparator))
  }

  /** How the outcome of `ls-files --error-unmatch` is read. */
  datatype TrackedCheck =
    | AsWritten   // any outcome `ExecuteGitCommand` does not fail, exit code 1 included
    | Corrected   // exit code 0 only

  /** The tracked check as written: `ls-files --error-unmatch` passes
      whenever `ExecuteGitCommand` does not fail, exit code 1 included. */
  predicate PassesTrackedCheckAsWritten(outcome: ProcessOutcome) {
    ExecuteGitCommand(outcome).result.Success?
  }

  /** `ls-files --error-unmatch` names a tracked file only when it exits with
      0; git reports a path missing from the index with exit code 1. */
  predicate IsTracked(outcome: ProcessOutcome) {
    outcome.Exited? && outcome.exitCode == 0
  }

  predicate Passes(check: TrackedCheck, outcome: ProcessOutcome) {
    match check
    case AsWritten => PassesTrackedCheckAsWritten(outcome)
    case Corrected => IsTracked(outcome)
  }

  /** The check as written lets git's "not in the index" answer through,
      while every outcome the corrected check accepts still passes it. */
  lemma TrackedCheckAcceptsUntracked(stderr: string)
    ensures PassesTrackedCheckAsWritten(Exited(1, "", stderr))
    ensures !IsTracked(Exited(1, "", stderr))
    ensures forall outcome :: IsTracked(outcome) ==> PassesTrackedCheckAsWritten(outcome)
  {
  }

  /** The absolute root with exactly one trailing separator added when missing. */
  function WithTrailingSeparator(root: string): (r: string)
    ensures r != "" && r[|r| - 1] == DirectorySeparator
    ensures |root| > 0 && root[|root| - 1] == DirectorySeparator ==> r == root
    ensures !(|root| > 0 && root[|root| - 1] == DirectorySeparator) ==> r == root + [DirectorySeparator]
  {
    if |root| > 0 && root[|root| - 1] == DirectorySeparator then root else root + [DirectorySeparator]
  }

  /** The path of `file` relative to `root`, with forward slashes; None when
      a path function throws. */
  function RelativePath(file: string, root: string, paths: PathFunctions): (r: Option<string>)
    ensures r.Some? ==> '\\' !in r.value
    ensures paths.fullPath(file).Some? && paths.fullPath(root).Some? ==>
      var absFile := paths.fullPath(file).value;
      var base := WithTrailingSeparator(paths.fullPath(root).value);
      StartsWithIgnoreCase(absFile, base) ==> r == Some(Replace(absFile[|base|..], '\\', '/'))
  {
    match (paths.fullPath(file), paths.fullPath(root))
    case (Some(absFile), Some(absRoot)) =>
      var base := WithTrailingSeparator(absRoot);
      var relative :=
        if StartsWithIgnoreCase(absFile, base) then Some(absFile[|base|..])
        else paths.relativeUri(base, absFile);
      (match relative
       case Some(rel) => Some(Replace(rel, '\\', '/'))
       case None => None)
    case _ => None
  }

  /** What `GetGitDiffAsync` returned, and the git invocations it made, in order. */
  datatype DiffRun = DiffRun(diff: string, invoked: seq<Invocation>)

  /** `GetGitDiffAsync` with the tracked check read as `check`: every
      failure yields "" instead of an exception. */
  function GetGitDiffWith(check: TrackedCheck, file: string, paths: PathFunctions,
                          git: Invocation -> ProcessOutcome): (r: DiffRun)
    ensures |r.invoked| <= 3
    ensures r.invoked == [] <==> paths.directoryName(file).None?
    ensures r.invoked != [] ==> r.invoked[0] == Invocation(RevParseShowToplevel, paths.directoryName(file).value)
    ensures |r.invoked| >= 2 ==> r.invoked[1].command.LsFilesErrorUnmatch?
    ensures |r.invoked| >= 2 ==>
      ReachesTrackedCheck(file, paths, git, paths.directoryName(file).value,
                          r.invoked[1].workingDirectory, r.invoked[1].command.path)
    ensures |r.invoked| == 3 ==>
      && r.invoked[2].command == DiffHead(r.invoked[1].command.path)
      && r.invoked[2].workingDirectory == r.invoked[1].workingDirectory
      && Passes(check, git(r.invoked[1]))
    ensures r.diff != "" ==>
      && |r.invoked| == 3
      && Utf16Length(r.diff) <= MaxDiffSize
      && ExecuteGitCommand(git(r.invoked[2])).result == Success(r.diff)
  {
    match paths.directoryName(file)
    case None => DiffRun("", [])
    case Some(directory) =>
    var top := Invocation(RevParseShowToplevel, directory);
    match ExecuteGitCommand(git(top)).result
    case Failure(_) => DiffRun("", [top])
    case Success(output) =>
      match NormalizeRoot(output)
      case None => DiffRun("", [top])
      case Some(root) =>
        match RelativePath(file, root, paths)
        case None => DiffRun("", [top])
        case Some(relative) =>
          var tracked := Invocation(LsFilesErrorUnmatch(relative), root);
          if !Passes(check, git(tracked)) then DiffRun("", [top, tracked])
          else
            var diffCall := Invocation(DiffHead(relative), root);
            match ExecuteGitCommand(git(diffCall)).result
            case Failure(_) => DiffRun("", [top, tracked, diffCall])
            case Success(diff) =>
              if Utf16Length(diff) > MaxDiffSize then DiffRun("", [top, tracked, diffCall])
              else DiffRun(diff, [top, tracked, diffCall])
  }

  /** `GetGitDiffAsync` as written: the diff is only fetched after
      `ls-files --error-unmatch` did not fail, exit code 1 included. */
  function GetGitDiff(file: string, paths: PathFunctions, git: Invocation -> ProcessOutcome): (r: DiffRun)
    ensures |r.invoked| == 3 ==> PassesTrackedCheckAsWritten(git(r.invoked[1]))
  {
    GetGitDiffWith(AsWritten, file, paths, git)
  }

  /** `GetGitDiffAsync` with the tracked check it evidently intends: only a
      file `ls-files` reports with exit code 0 is diffed. */
  function GetGitDiffCorrected(file: string, paths: PathFunctions, git: Invocation -> ProcessOutcome): (r: DiffRun)
    ensures |r.invoked| == 3 ==> IsTracked(git(r.invoked[1]))
  {
    GetGitDiffWith(Corrected, file, paths, git)
  }

  /** A file below the repository root, reached through a prefix that differs
      from the root at most in letter case, is named by the rest of its path
      with forward slashes: `MakeRelativeUri` is not consulted. */
  lemma RelativePathStripsRoot(file: string, root: string, paths: PathFunctions, prefix: string, rest: string)
    requires paths.fullPath(root).Some?
    requires paths.fullPath(file) == Some(prefix + rest)
    requires Fold(prefix) == Fold(WithTrailingSeparator(paths.fullPath(root).value))
    ensures RelativePath(file, root, paths) == Some(Replace(rest, '\\', '/'))
  {
    var base := WithTrailingSeparator(paths.fullPath(root).value);
    var absFile := prefix + rest;
    assert |prefix| == |base|;
    assert absFile[..|base|] == prefix;
    assert absFile[|base|..] == rest;
  }

  /** The relative path handed to git never contains a backslash, whichever
      way it was computed; and a root-relative Windows path is turned into
      its forward-slash form letter by letter. */
  lemma RelativePathUsesForwardSlashes(file: string, root: string, paths: PathFunctions, rest: string)
    requires paths.fullPath(root).Some?
    requires paths.fullPath(file) == Some(WithTrailingSeparator(paths.fullPath(root).value) + rest)
    ensures RelativePath(file, root, paths).Some?
    ensures var rel := RelativePath(file, root, paths).value;
      && |rel| == |rest|
      && '\\' !in rel
      && forall i :: 0 <= i < |rest| ==> (rel[i] == '/' <==> rest[i] == '/' || rest[i] == '\\')
  {
    var base := WithTrailingSeparator(paths.fullPath(root).value);
    RelativePathStripsRoot(file, root, paths, base, rest);
  }

  /** The first steps succeed: the directory is known, the root query
      prints `root`, and the file is `relative` below it. */
  predicate ReachesTrackedCheck(file: string, paths: PathFunctions, git: Invocation -> ProcessOutcome,
                                directory: string, root: string, relative: string)
  {
    && paths.directoryName(file) == Some(directory)
    && ExecuteGitCommand(git(Invocation(RevParseShowToplevel, directory))).result.Success?
    && NormalizeRoot(ExecuteGitCommand(git(Invocation(RevParseShowToplevel, directory))).result.value) == Some(root)
    && RelativePath(file, root, paths) == Some(relative)
  }

  /** When the tracked check passes and the diff call succeeds, the three
      git calls are made in order, the last two in the repository root, and
      the diff is returned unchanged exactly when it fits in `MaxDiffSize`. */
  lemma CleanRunReturnsDiff(check: TrackedCheck, file: string, paths: PathFunctions, git: Invocation -> ProcessOutcome,
                            directory: string, root: string, relative: string, diff: string)
    requires ReachesTrackedCheck(file, paths, git, directory, root, relative)
    requires Passes(check, git(Invocation(LsFilesErrorUnmatch(relative), root)))
    requires ExecuteGitCommand(git(Invocation(DiffHead(relative), root))).result == Success(diff)
    ensures GetGitDiffWith(check, file, paths, git).invoked ==
      [Invocation(RevParseShowToplevel, directory),
       Invocation(LsFilesErrorUnmatch(relative), root),
       Invocation(DiffHead(relative), root)]
    ensures GetGitDiffWith(check, file, paths, git).diff == (if Utf16Length(diff) <= MaxDiffSize then diff else "")
  {
  }

  /** When the tracked check fails, the run ends with "" and the diff
      command is never run. */
  lemma TrackedCheckFailureNotDiffed(check: TrackedCheck, file: string, paths: PathFunctions,
                                     git: Invocation -> ProcessOutcome, directory: string, root: string, relative: string)
    requires ReachesTrackedCheck(file, paths, git, directory, root, relative)
    requires !Passes(check, git(Invocation(LsFilesErrorUnmatch(relative), root)))
    ensures GetGitDiffWith(check, file, paths, git) ==
      DiffRun("", [Invocation(RevParseShowToplevel, directory), Invocation(LsFilesErrorUnmatch(relative), root)])
  {
  }

  /** As written, a path git reports as missing from the index (exit code
      1) is still diffed, and whatever `diff HEAD` prints within the size
      bound is returned, for instance the deletion of a file removed from
      the index but present in `HEAD`. */
  lemma UntrackedStillDiffedAsWritten(file: string, paths: PathFunctions, git: Invocation -> ProcessOutcome,
                                      directory: string, root: string, relative: string,
                                      lsStdout: string, lsStderr: string, diff: string)
    requires ReachesTrackedCheck(file, paths, git, directory, root, relative)
    requires git(Invocation(LsFilesErrorUnmatch(relative), root)) == Exited(1, lsStdout, lsStderr)
    requires git(Invocation(DiffHead(relative), root)) == Exited(0, diff, "")
    requires Utf16Length(diff) <= MaxDiffSize
    ensures GetGitDiff(file, paths, git).invoked[2] == Invocation(DiffHead(relative), root)
    ensures GetGitDiff(file, paths, git).diff == diff
    ensures GetGitDiffCorrected(file, paths, git).diff == ""
  {
    CleanRunReturnsDiff(AsWritten, file, paths, git, directory, root, relative, diff);
    TrackedCheckFailureNotDiffed(Corrected, file, paths, git, directory, root, relative);
  }

  /** With the corrected check, a file git does not track is never diffed:
      `ls-files --error-unmatch` exiting with anything but 0 (the exit code 1
      git gives for a path missing from the index included), timing out or
      not starting ends the run with "". */
  lemma UntrackedFileNotDiffed(file: string, paths: PathFunctions, git: Invocation -> ProcessOutcome,
                               directory: string, root: string, relative: string)
    requires ReachesTrackedCheck(file, paths, git, directory, root, relative)
    requires !IsTracked(git(Invocation(LsFilesErrorUnmatch(relative), root)))
    ensures GetGitDiffCorrected(file, paths, git) ==
      DiffRun("", [Invocation(RevParseShowToplevel, directory), Invocation(LsFilesErrorUnmatch(relative), root)])
  {
    TrackedCheckFailureNotDiffed(Corrected, file, paths, git, directory, root, relative);
  }

  /** Outside a repository (`rev-parse --show-toplevel` fails or prints only
      white space) nothing else is run and the diff is "". */
  lemma NoRootNoDiff(file: string, paths: PathFunctions, git: Invocation -> ProcessOutcome, directory: string)
    requires paths.directoryName(file) == Some(directory)
    requires !SucceededWithOutput(git(Invocation(RevParseShowToplevel, directory)))
    ensures GetGitDiff(file, paths, git) == DiffRun("", [Invocation(RevParseShowToplevel, directory)])
  {
  }
}

=== FILE: intent_examples.dfy ===
/** Worked answers of the classifier and what the user is shown for them. */
module IntentExamples {
  import opened Text
  import opened IntentProcessor

  /** The documented example of a structured answer. */
  lemma StructuredAnswerExample()
    ensures ParseIntent("Intent: Bugfix\nMessage: Fixed null check") == ParsedIntent("Bugfix", "Fixed null check")
    ensures DisplayMessage("Intent: Bugfix\nMessage: Fixed null check") == "Bugfix: Fixed null check"
  {
    var kind, message := "Bugfix", "Fixed null check";
    assert kind + ": " + message == "Bugfix: Fixed null check";
    assert IsTrimmed(kind) && HasNoLineBreak(kind);
    assert IsTrimmed(message) && HasNoLineBreak(message);
    BugfixRendered();
    ParseRender(kind, message);
  }

  /** The documented answer is the two-line rendering of its fields. */
  lemma BugfixRendered()
    ensures Render("Bugfix", "Fixed null check") == "Intent: Bugfix\nMessage: Fixed null check"
  {
    assert IntentPrefix + " " + "Bugfix" == "Intent: Bugfix";
    assert MessagePrefix + " " + "Fixed null check" == "Message: Fixed null check";
    assert "Intent: Bugfix" + "\n" + "Message: Fixed null check" == "Intent: Bugfix\nMessage: Fixed null check";
  }

  /** An answer without an `Intent:` line is shown whole. */
  lemma PlainAnswerExample()
    ensures ParseIntent("Refactored code") == ParsedIntent("Intent", "Refactored code")
    ensures DisplayMessage("Refactored code") == "Intent: Refactored code"
  {
    var raw := "Refactored code";
    assert "Intent: " + raw == "Intent: Refactored code";
    assert !IsWhiteSpace(raw[0]);
    assert !IsIntentLine(raw) by {
      assert Fold(raw[..|IntentPrefix|])[0] != Fold(IntentPrefix)[0];
    }
    SingleLineFallback(raw);
  }

  /** A line that merely starts with the letters of "Intent" is no `Intent:`
      line. */
  lemma LookalikeAnswerExample()
    ensures ParseIntent("Intentional cleanup") == ParsedIntent("Intent", "Intentional cleanup")
    ensures DisplayMessage("Intentional cleanup") == "Intent: Intentional cleanup"
  {
    var raw := "Intentional cleanup";
    assert "Intent: " + raw == "Intent: Intentional cleanup";
    assert !IsWhiteSpace(raw[0]);
    assert !IsIntentLine(raw) by {
      assert Fold(raw[..|IntentPrefix|])[6] != Fold(IntentPrefix)[6];
    }
    SingleLineFallback(raw);
  }

  /** Lines are not trimmed before the prefix test. */
  lemma IndentedIntentLineExample()
    ensures ParseIntent("  Intent: X") == ParsedIntent("Intent", "  Intent: X")
  {
    var raw := "  Intent: X";
    assert !IsWhiteSpace(raw[2]);
    assert !IsIntentLine(raw) by {
      assert Fold(raw[..|IntentPrefix|])[0] != Fold(IntentPrefix)[0];
    }
    SingleLineFallback(raw);
  }

  lemma EmptyAnswerExample()
    ensures ParseIntent("") == ParsedIntent("Unknown", "")
    ensures DisplayMessage("") == "Intent: "
  {
  }
}

=== FILE: intent_processor.dfy ===
/** Interpreting the classifier's free-text answer as an intent type and a
    message, and the string shown to the user (CommiTect/Commands/IntentProcessor.cs). */
module IntentProcessor {
  import opened Text

  datatype ParsedIntent = ParsedIntent(kind: string, message: string)

  const IntentPrefix := "Intent:"
  const MessagePrefix := "Message:"

  predicate IsLineBreak(c: char) {
    c == '\n' || c == '\r'
  }

  predicate HasNoLineBreak(s: string) {
    forall i :: 0 <= i < |s| ==> !IsLineBreak(s[i])
  }

  /** Index of the first line break in `s`, or `|s|` when there is none. */
  function FirstBreak(s: string): (k: nat)
    ensures k <= |s|
    ensures forall i :: 0 <= i < k ==> !IsLineBreak(s[i])
    ensures HasNoLineBreak(s[..k])
    ensures k < |s| ==> IsLineBreak(s[k])
  {
    if s == [] then 0
    else if IsLineBreak(s[0]) then 0
    else
      var k := 1 + FirstBreak(s[1..]);
      assert s[..k] == [s[0]] + s[1..][..k - 1];
      k
  }

  /** `s.Split(new[] { '\n', '\r' }, StringSplitOptions.RemoveEmptyEntries)` */
  function SplitLines(s: string): (lines: seq<string>)
    ensures forall i :: 0 <= i < |lines| ==> lines[i] != "" && HasNoLineBreak(lines[i])
    decreases |s|
  {
    if s == [] then []
    else
      var k := FirstBreak(s);
      var first := if k == 0 then [] else [s[..k]];
      assert forall i :: 0 <= i < |first| ==> first[i] != "" && HasNoLineBreak(first[i]);
      if k == |s| then first else first + SplitLines(s[k + 1..])
  }

  /** A text without line breaks is a single line, or none when empty. */
  lemma SplitUnbroken(s: string)
    requires HasNoLineBreak(s)
    ensures SplitLines(s) == if s == "" then [] else [s]
  {
    if s != "" {
      assert FirstBreak(s) == |s|;
      assert s[..|s|] == s;
    }
  }

  /** The first break of `a + [c] + b` lies in `a`, or is `c` itself. */
  lemma FirstBreakOfJoin(a: string, c: char, b: string)
    requires IsLineBreak(c)
    ensures FirstBreak(a + [c] + b) == if HasNoLineBreak(a) then |a| else FirstBreak(a)
  {
    var s := a + [c] + b;
    assert s[|a|] == c;
    assert forall i :: 0 <= i < |a| ==> s[i] == a[i];
    if !HasNoLineBreak(a) {
      assert s[FirstBreak(a)] == a[FirstBreak(a)];
    }
  }

  /** Splitting at a line break splits the two sides independently: there is
      no empty entry for the break itself. */
  lemma {:induction false} SplitAtBreak(a: string, c: char, b: string)
    requires IsLineBreak(c)
    ensures SplitLines(a + [c] + b) == SplitLines(a) + SplitLines(b)
    decreases |a|
  {
    var s := a + [c] + b;
    FirstBreakOfJoin(a, c, b);
    var k := FirstBreak(s);
    if HasNoLineBreak(a) {
      assert s[..k] == a;
      assert s[k + 1..] == b;
      SplitUnbroken(a);
    } else {
      var ka := FirstBreak(a);
      assert s[..k] == a[..ka];
      assert s[k + 1..] == a[ka + 1..] + [c] + b;
      SplitAtBreak(a[ka + 1..], c, b);
    }
  }

  /** A CR-LF pair separates lines exactly like a single break does. */
  lemma CrLfSeparatesOnce(a: string, b: string)
    ensures SplitLines(a + "\r\n" + b) == SplitLines(a) + SplitLines(b)
  {
    var rest := ['\n'] + b;
    var empty: string := [];
    calc {
      SplitLines(a + "\r\n" + b);
      { assert a + "\r\n" + b == a + ['\r'] + rest; }
      SplitLines(a + ['\r'] + rest);
      { SplitAtBreak(a, '\r', rest); }
      SplitLines(a) + SplitLines(rest);
      { assert rest == empty + ['\n'] + b; SplitAtBreak(empty, '\n', b); }
      SplitLines(a) + (SplitLines(empty) + SplitLines(b));
    }
  }

  predicate IsIntentLine(line: string) {
    StartsWithIgnoreCase(line, IntentPrefix)
  }

  /** Only lines that are not `Intent:` lines are compared with `Message:`. */
  predicate IsMessageLine(line: string) {
    !IsIntentLine(line) && StartsWithIgnoreCase(line, MessagePrefix)
  }

  function IntentValue(line: string): string
    requires IsIntentLine(line)
  {
    Trim(line[|IntentPrefix|..])
  }

  function MessageValue(line: string): string
    requires IsMessageLine(line)
  {
    Trim(line[|MessagePrefix|..])
  }

  /** Line `i` is the last `Intent:` line. */
  ghost predicate LastIntentLineAt(lines: seq<string>, i: int) {
    0 <= i < |lines| && IsIntentLine(lines[i])
    && forall j :: i < j < |lines| ==> !IsIntentLine(lines[j])
  }

  /** Line `i` is the last `Message:` line. */
  ghost predicate LastMessageLineAt(lines: seq<string>, i: int) {
    0 <= i < |lines| && IsMessageLine(lines[i])
    && forall j :: i < j < |lines| ==> !IsMessageLine(lines[j])
  }

  ghost predicate NoIntentLine(lines: seq<string>) {
    forall i :: 0 <= i < |lines| ==> !IsIntentLine(lines[i])
  }

  ghost predicate NoMessageLine(lines: seq<string>) {
    forall i :: 0 <= i < |lines| ==> !IsMessageLine(lines[i])
  }

  /** The `foreach` over the lines: each `Intent:` line overwrites the type and
      each `Message:` line the message, both starting from "". */
  function ScanLines(lines: seq<string>): (r: ParsedIntent)
    ensures forall i :: LastIntentLineAt(lines, i) ==> r.kind == IntentValue(lines[i])
    ensures NoIntentLine(lines) ==> r.kind == ""
    ensures forall i :: LastMessageLineAt(lines, i) ==> r.message == MessageValue(lines[i])
    ensures NoMessageLine(lines) ==> r.message == ""
  {
    if lines == [] then ParsedIntent("", "")
    else
      var n := |lines| - 1;
      var init := lines[..n];
      var line := lines[n];
      var before := ScanLines(init);
      LastLineSplit(lines);
      if IsIntentLine(line) then
        before.(kind := IntentValue(line))
      else if IsMessageLine(line) then
        before.(message := MessageValue(line))
      else
        before
  }

  /** How the "last line" predicates relate a list to the list without its
      final element. */
  lemma LastLineSplit(lines: seq<string>)
    requires lines != []
    ensures var n := |lines| - 1;
      && (forall i :: 0 <= i < n ==> lines[..n][i] == lines[i])
      && (forall i :: LastIntentLineAt(lines, i) && i < n ==> LastIntentLineAt(lines[..n], i))
      && (forall i :: LastMessageLineAt(lines, i) && i < n ==> LastMessageLineAt(lines[..n], i))
      && (IsIntentLine(lines[n]) ==> forall i :: LastIntentLineAt(lines, i) <==> i == n)
      && (!IsIntentLine(lines[n]) ==> forall i :: LastIntentLineAt(lines, i) ==> i < n)
      && (IsMessageLine(lines[n]) ==> forall i :: LastMessageLineAt(lines, i) <==> i == n)
      && (!IsMessageLine(lines[n]) ==> forall i :: LastMessageLineAt(lines, i) ==> i < n)
      && (NoIntentLine(lines) <==> NoIntentLine(lines[..n]) && !IsIntentLine(lines[n]))
      && (NoMessageLine(lines) <==> NoMessageLine(lines[..n]) && !IsMessageLine(lines[n]))
  {
  }

  /** `ParseIntent`: blank input is ("Unknown", ""); input without a usable
      `Intent:` line is ("Intent", the whole input). */
  function ParseIntent(raw: string): (p: ParsedIntent)
    ensures p.kind != ""
    ensures IsBlank(raw) ==> p == ParsedIntent("Unknown", "")
    ensures !IsBlank(raw) && NoIntentLine(SplitLines(raw)) ==> p == ParsedIntent("Intent", raw)
    ensures var lines := SplitLines(raw);
      forall i :: !IsBlank(raw) && LastIntentLineAt(lines, i) && IntentValue(lines[i]) == "" ==>
        p == ParsedIntent("Intent", raw)
    ensures var lines := SplitLines(raw);
      forall i :: !IsBlank(raw) && LastIntentLineAt(lines, i) && IntentValue(lines[i]) != "" ==>
        && p.kind == IntentValue(lines[i])
        && (NoMessageLine(lines) ==> p.message == "")
        && (forall j :: LastMessageLineAt(lines, j) ==> p.message == MessageValue(lines[j]))
  {
    if IsBlank(raw) then ParsedIntent("Unknown", "")
    else
      var scanned := ScanLines(SplitLines(raw));
      if scanned.kind == "" then ParsedIntent("Intent", raw) else scanned
  }

  /** The text shown to the user: `"<type>: <message>"`, or `"Intent: <raw>"`
      when the message is empty. */
  function DisplayMessage(raw: string): string {
    var p := ParseIntent(raw);
    if p.message != "" then p.kind + ": " + p.message else "Intent: " + raw
  }

  /** The display rule in terms of the answer's lines: the values of the last
      `Intent:` line and the last `Message:` line, joined by ": " when both
      are non-empty; in every other case `Intent: ` followed by the raw answer. */
  lemma DisplayMessageMeaning(raw: string)
    ensures var lines := SplitLines(raw);
      forall i, j :: !IsBlank(raw) && LastIntentLineAt(lines, i) && IntentValue(lines[i]) != ""
                     && LastMessageLineAt(lines, j) && MessageValue(lines[j]) != "" ==>
        DisplayMessage(raw) == IntentValue(lines[i]) + ": " + MessageValue(lines[j])
    ensures IsBlank(raw) || NoIntentLine(SplitLines(raw)) || NoMessageLine(SplitLines(raw)) ==>
      DisplayMessage(raw) == "Intent: " + raw
    ensures var lines := SplitLines(raw);
      forall i :: LastIntentLineAt(lines, i) && IntentValue(lines[i]) == "" ==> DisplayMessage(raw) == "Intent: " + raw
    ensures var lines := SplitLines(raw);
      forall j :: LastMessageLineAt(lines, j) && MessageValue(lines[j]) == "" ==> DisplayMessage(raw) == "Intent: " + raw
  {
    var lines := SplitLines(raw);
    if IsBlank(raw) || NoIntentLine(lines) {
      ShownWhole(raw);
    } else if NoMessageLine(lines) {
      WholeWithoutMessage(raw);
    }
    forall i | LastIntentLineAt(lines, i) && IntentValue(lines[i]) == ""
      ensures DisplayMessage(raw) == "Intent: " + raw
    {
      ShownWhole(raw);
    }
    forall j | LastMessageLineAt(lines, j) && MessageValue(lines[j]) == ""
      ensures DisplayMessage(raw) == "Intent: " + raw
    {
      WholeWithoutMessage(raw);
    }
  }

  /** The raw answer is shown whole when the parse kept no message, or fell
      back to ("Intent", raw); a blank answer or one without an `Intent:`
      line, or whose last `Intent:` line is empty, does so. */
  lemma ShownWhole(raw: string)
    requires var lines := SplitLines(raw);
      || IsBlank(raw) || NoIntentLine(lines)
      || (exists i :: LastIntentLineAt(lines, i) && IntentValue(lines[i]) == "")
      || ParseIntent(raw).message == ""
    ensures DisplayMessage(raw) == "Intent: " + raw
  {
    if !IsBlank(raw) {
      assert raw != "";
    }
    assert "Intent" + ": " + raw == "Intent: " + raw;
  }

  /** Whenever the parse keeps no message from the `Message:` lines, the raw
      answer is shown whole. */
  lemma WholeWithoutMessage(raw: string)
    requires var lines := SplitLines(raw);
      || NoMessageLine(lines)
      || (exists j :: LastMessageLineAt(lines, j) && MessageValue(lines[j]) == "")
    ensures DisplayMessage(raw) == "Intent: " + raw
  {
    var lines := SplitLines(raw);
    if IsBlank(raw) || NoIntentLine(lines) {
      ShownWhole(raw);
    } else {
      LastIntentLineExists(lines);
      var i :| LastIntentLineAt(lines, i);
      if IntentValue(lines[i]) != "" {
        assert ParseIntent(raw).message == "";
      }
      ShownWhole(raw);
    }
  }

  /** Some line is the last `Intent:` line as soon as there is one. */
  lemma {:induction false} LastIntentLineExists(lines: seq<string>)
    requires !NoIntentLine(lines)
    ensures exists i :: LastIntentLineAt(lines, i)
    decreases |lines|
  {
    var n := |lines| - 1;
    LastLineSplit(lines);
    if IsIntentLine(lines[n]) {
      assert LastIntentLineAt(lines, n);
    } else {
      LastIntentLineExists(lines[..n]);
      var i :| LastIntentLineAt(lines[..n], i);
      assert LastIntentLineAt(lines, i);
    }
  }

  /** Without any `Intent:` line, blank or not, the raw text is shown after
      `Intent: `. */
  lemma DisplayWithoutIntentLine(raw: string)
    requires NoIntentLine(SplitLines(raw))
    ensures DisplayMessage(raw) == "Intent: " + raw
  {
    ShownWhole(raw);
  }

  /** Text carrying no white space at either end. */
  predicate IsTrimmed(s: string) {
    s == "" || (!IsWhiteSpace(s[0]) && !IsWhiteSpace(s[|s| - 1]))
  }

  lemma TrimAfterSpace(s: string)
    requires IsTrimmed(s)
    ensures Trim(" " + s) == s
  {
    var x := " " + s;
    var r := Trim(x);
    if s == "" {
      assert IsBlank(x);
    } else {
      assert !IsBlank(x) by { assert !IsWhiteSpace(x[1]); }
      assert LeadingBlank(x) == 1;
      assert |r| == |s|;
      assert r == x[1..];
    }
  }

  lemma NoBreakConcat(a: string, b: string)
    requires HasNoLineBreak(a) && HasNoLineBreak(b)
    ensures HasNoLineBreak(a + b)
  {
    assert forall i :: |a| <= i < |a + b| ==> (a + b)[i] == b[i - |a|];
  }

  lemma PrefixesHaveNoBreak()
    ensures HasNoLineBreak(IntentPrefix + " ") && HasNoLineBreak(MessagePrefix + " ")
  {
    assert IntentPrefix + " " == "Intent: ";
    assert MessagePrefix + " " == "Message: ";
  }

  /** The two-line answer the classifier is expected to give. */
  function Render(kind: string, message: string): string {
    IntentPrefix + " " + kind + "\n" + MessagePrefix + " " + message
  }

  lemma RenderedLines(kind: string, message: string)
    requires HasNoLineBreak(kind) && HasNoLineBreak(message)
    ensures SplitLines(Render(kind, message)) == [IntentPrefix + " " + kind, MessagePrefix + " " + message]
  {
    var first := IntentPrefix + " " + kind;
    var second := MessagePrefix + " " + message;
    assert Render(kind, message) == first + ['\n'] + second;
    SplitAtBreak(first, '\n', second);
    PrefixesHaveNoBreak();
    NoBreakConcat(IntentPrefix + " ", kind);
    NoBreakConcat(MessagePrefix + " ", message);
    SplitUnbroken(first);
    SplitUnbroken(second);
  }

  lemma RenderedIntentLine(kind: string)
    requires IsTrimmed(kind)
    ensures IsIntentLine(IntentPrefix + " " + kind)
    ensures IntentValue(IntentPrefix + " " + kind) == kind
  {
    var first := IntentPrefix + " " + kind;
    assert IsIntentLine(first) by {
      assert first[..|IntentPrefix|] == IntentPrefix;
    }
    assert first[|IntentPrefix|..] == " " + kind;
    TrimAfterSpace(kind);
  }

  lemma RenderedMessageLine(message: string)
    requires IsTrimmed(message)
    ensures IsMessageLine(MessagePrefix + " " + message)
    ensures MessageValue(MessagePrefix + " " + message) == message
  {
    var second := MessagePrefix + " " + message;
    assert IsMessageLine(second) by {
      assert second[..|MessagePrefix|] == MessagePrefix;
      assert Fold(second[..|IntentPrefix|])[0] != Fold(IntentPrefix)[0];
    }
    assert second[|MessagePrefix|..] == " " + message;
    TrimAfterSpace(message);
  }

  /** Parsing inverts rendering, for a non-empty type and a message that carry
      no line break and no surrounding white space. */
  lemma ParseRender(kind: string, message: string)
    requires kind != "" && IsTrimmed(kind) && HasNoLineBreak(kind)
    requires IsTrimmed(message) && HasNoLineBreak(message)
    ensures ParseIntent(Render(kind, message)) == ParsedIntent(kind, message)
    ensures message != "" ==> DisplayMessage(Render(kind, message)) == kind + ": " + message
  {
    var raw := Render(kind, message);
    RenderedLines(kind, message);
    RenderedIntentLine(kind);
    RenderedMessageLine(message);
    var lines := SplitLines(raw);
    assert LastIntentLineAt(lines, 0);
    assert LastMessageLineAt(lines, 1);
    assert !IsBlank(raw) by { assert raw[0] == 'I'; }
  }

  /** A single line that is not an `Intent:` line, such as an indented one or
      one merely starting with "I": blank, it parses to ("Unknown", ""),
      otherwise to ("Intent", raw); either way it is shown after `Intent: `. */
  lemma SingleLineFallback(raw: string)
    requires raw != "" && HasNoLineBreak(raw)
    requires !IsIntentLine(raw)
    ensures ParseIntent(raw) == (if IsBlank(raw) then ParsedIntent("Unknown", "") else ParsedIntent("Intent", raw))
    ensures DisplayMessage(raw) == "Intent: " + raw
  {
    SplitUnbroken(raw);
    assert NoIntentLine(SplitLines(raw));
    DisplayWithoutIntentLine(raw);
  }
}

=== FILE: results.dfy ===
/** Optional values and success-or-error results, standing in for the .NET
    null references and exceptions of the extension. */
module Results {

  datatype Option<T> = None | Some(value: T)

  datatype Result<T, E> = Success(value: T) | Failure(error: E)
}

=== FILE: save_pipeline.dfy ===
/** `ProcessFileAsync` of `DocumentSaveListener`: the steps run for the
    pending path once the debounce timer elapses, as a trace of effects.
    Git is answered through `GitService`, the analysis service by an
    abstract `ApiOutcome`; the status bar, the info bar and the message box
    are effects. */
module SavePipeline {
  import opened Text
  import GitService

  const AnalyzingText := "Analyzing commit intent..."
  const DetectedText := "Intent detected!"
  const WarningPrefix := "Failed to detect commit intent: "
  const EmptyIntentMessage := "API returned empty intent"

  /** How long the result stays in the status bar before it is cleared. */
  const ResultHoldMs: nat := 3000

  /** What `AnalyzeCommitIntentAsync` gave back: the intent text, or the
      message of the exception it threw. */
  datatype ApiOutcome = Analyzed(intent: string) | ApiFailed(message: string)

  /** The outside world as the pipeline meets it. */
  datatype Environment = Environment(
    paths: GitService.PathFunctions,
    git: GitService.Invocation -> GitService.ProcessOutcome,
    analyze: string -> ApiOutcome)

  datatype Effect =
    | StatusShown(text: string)      // StatusBarService.UpdateAsync
    | StatusCleared                  // StatusBarService.HideAsync
    | ApiRequested(diff: string)     // ApiClient.AnalyzeCommitIntentAsync
    | IntentShown(intent: string)    // IntentProcessor.ProcessAndDisplayAsync; shows DisplayMessage(intent)
    | Paused(ms: nat)                // Task.Delay
    | WarningShown(text: string)     // VsShellUtilities.ShowMessageBox

  /** `UpdateAsync` shows its text only when the status bar option is on. */
  function Status(showStatusBar: bool, text: string): (effects: seq<Effect>)
    ensures |effects| <= 1
    ensures effects != [] <==> showStatusBar
    ensures effects != [] ==> effects[0] == StatusShown(text)
  {
    if showStatusBar then [StatusShown(text)] else []
  }

  /** The `catch` block: clear the status, then one warning. */
  function ErrorTrace(message: string): seq<Effect> {
    [StatusCleared, WarningShown(WarningPrefix + message)]
  }

  /** What happens once the service has answered: a blank intent is an
      error like any exception; otherwise the intent is displayed, the
      result is shown, held and cleared. */
  function Conclude(showStatusBar: bool, outcome: ApiOutcome): (effects: seq<Effect>)
    ensures EndsCleared(effects)
    ensures forall i :: 0 <= i < |effects| - 1 ==> !effects[i].WarningShown?
    ensures forall i :: 0 <= i < |effects| ==> !effects[i].ApiRequested?
    ensures !showStatusBar ==> forall i :: 0 <= i < |effects| ==> !effects[i].StatusShown?
    ensures !IsFailure(outcome) ==> effects[0] == IntentShown(outcome.intent)
    ensures effects[|effects| - 1].WarningShown? <==> IsFailure(outcome)
    ensures effects[|effects| - 1].WarningShown? ==>
      effects[|effects| - 1].text == WarningPrefix + FailureMessage(outcome)
    ensures forall i :: 0 <= i < |effects| && effects[i].IntentShown? ==>
      !IsFailure(outcome) && effects[i].intent == outcome.intent
  {
    match outcome
    case ApiFailed(message) => ErrorTrace(message)
    case Analyzed(intent) =>
      if IsBlank(intent) then ErrorTrace(EmptyIntentMessage)
      else [IntentShown(intent)] + Status(showStatusBar, DetectedText)
           + [Paused(ResultHoldMs), StatusCleared]
  }

  /** The trace ends with the status cleared, or with the status cleared
      and then one warning. */
  predicate EndsCleared(trace: seq<Effect>) {
    || (|trace| >= 1 && trace[|trace| - 1] == StatusCleared)
    || (|trace| >= 2 && trace[|trace| - 2] == StatusCleared && trace[|trace| - 1].WarningShown?)
  }

  predicate CallsApi(trace: seq<Effect>) {
    exists i :: 0 <= i < |trace| && trace[i].ApiRequested?
  }

  /** The service's answer counts as an error: an exception, or a blank intent. */
  predicate IsFailure(outcome: ApiOutcome) {
    outcome.ApiFailed? || IsBlank(outcome.intent)
  }

  /** The message of the error the service's answer raised. */
  function FailureMessage(outcome: ApiOutcome): string {
    match outcome
    case ApiFailed(message) => message
    case Analyzed(_) => EmptyIntentMessage
  }

  /** The steps of `ProcessFileAsync` once git has answered: whether the file
      is in a repository, and its diff against HEAD. */
  function Pipeline(path: string, showStatusBar: bool, inRepository: bool, diff: string,
                    analyze: string -> ApiOutcome): (trace: seq<Effect>)
    ensures trace == [] <==> path == ""
    ensures trace != [] ==> EndsCleared(trace)
    ensures trace != [] && showStatusBar ==> trace[0] == StatusShown(AnalyzingText)
    ensures !showStatusBar ==> forall i :: 0 <= i < |trace| ==> !trace[i].StatusShown?
    ensures forall i :: 0 <= i < |trace| - 1 ==> !trace[i].WarningShown?
    ensures CallsApi(trace) <==> path != "" && inRepository && !IsBlank(diff)
    ensures forall i :: 0 <= i < |trace| && trace[i].ApiRequested? ==> trace[i].diff == diff
    ensures (trace != [] && trace[|trace| - 1].WarningShown?) <==>
      (CallsApi(trace) && IsFailure(analyze(diff)))
    ensures trace != [] && trace[|trace| - 1].WarningShown? ==>
      trace[|trace| - 1].text == WarningPrefix + FailureMessage(analyze(diff))
    ensures forall i :: 0 <= i < |trace| && trace[i].IntentShown? ==>
      && CallsApi(trace) && !IsFailure(analyze(diff))
      && trace[i].intent == analyze(diff).intent
  {
    if path == "" then []
    else
      var analyzing := Status(showStatusBar, AnalyzingText);
      if !inRepository || IsBlank(diff) then analyzing + [StatusCleared]
      else
        var trace := analyzing + [ApiRequested(diff)] + Conclude(showStatusBar, analyze(diff));
        assert trace[|analyzing|].ApiRequested?;
        trace
  }

  /** `ProcessFileAsync` for the path pending when the timer fired: git is
      asked through `GitService`, whose answers never throw. An empty path
      does nothing; every other run ends with the status cleared, at most
      one warning comes and only last, and the service is reached only
      inside a repository. */
  function ProcessFile(path: string, showStatusBar: bool, env: Environment): (trace: seq<Effect>)
    ensures trace == [] <==> path == ""
    ensures trace != [] ==> EndsCleared(trace)
    ensures forall i :: 0 <= i < |trace| - 1 ==> !trace[i].WarningShown?
    ensures CallsApi(trace) ==> GitService.IsGitRepository(path, env.paths, env.git)
  {
    var inRepository := path != "" && GitService.IsGitRepository(path, env.paths, env.git);
    Pipeline(path, showStatusBar, inRepository, GitService.GetGitDiff(path, env.paths, env.git).diff, env.analyze)
  }

  /** The service is reached exactly when `GitService` reports a repository
      and a diff that is not blank, and it receives that diff. */
  lemma ProcessFileCallsApi(path: string, showStatusBar: bool, env: Environment)
    ensures var trace := ProcessFile(path, showStatusBar, env);
      var diff := GitService.GetGitDiff(path, env.paths, env.git).diff;
      && (CallsApi(trace) <==> path != "" && GitService.IsGitRepository(path, env.paths, env.git) && !IsBlank(diff))
      && (forall i :: 0 <= i < |trace| && trace[i].ApiRequested? ==> trace[i].diff == diff)
  {
  }

  /** A file outside any repository ends the run right after the status
      message: the service is not called and nothing is reported. */
  lemma OutsideRepositoryQuiet(path: string, showStatusBar: bool, env: Environment)
    requires path != "" && !GitService.IsGitRepository(path, env.paths, env.git)
    ensures ProcessFile(path, showStatusBar, env) == Status(showStatusBar, AnalyzingText) + [StatusCleared]
  {
  }

  /** Every error the service raises ends the run with exactly one warning
      carrying its message, after the status is cleared. */
  lemma FailureWarnsOnce(path: string, showStatusBar: bool, env: Environment)
    requires path != "" && GitService.IsGitRepository(path, env.paths, env.git)
    requires var diff := GitService.GetGitDiff(path, env.paths, env.git).diff;
      !IsBlank(diff) && IsFailure(env.analyze(diff))
    ensures var trace := ProcessFile(path, showStatusBar, env);
      var diff := GitService.GetGitDiff(path, env.paths, env.git).diff;
      && |trace| >= 2 && trace[|trace| - 2] == StatusCleared
      && trace[|trace| - 1] == WarningShown(WarningPrefix + FailureMessage(env.analyze(diff)))
      && forall i :: 0 <= i < |trace| ==> !trace[i].IntentShown?
  {
  }

  /** A usable intent is handed to the intent processor, the result is
      announced, held for three seconds and cleared; no warning follows. */
  lemma SuccessShowsIntent(path: string, showStatusBar: bool, env: Environment)
    requires path != "" && GitService.IsGitRepository(path, env.paths, env.git)
    requires var diff := GitService.GetGitDiff(path, env.paths, env.git).diff;
      !IsBlank(diff) && !IsFailure(env.analyze(diff))
    ensures var diff := GitService.GetGitDiff(path, env.paths, env.git).diff;
      ProcessFile(path, showStatusBar, env)
      == Status(showStatusBar, AnalyzingText) + [ApiRequested(diff), IntentShown(env.analyze(diff).intent)]
         + Status(showStatusBar, DetectedText) + [Paused(ResultHoldMs), StatusCleared]
  {
    var diff := GitService.GetGitDiff(path, env.paths, env.git).diff;
    PipelineSucceeds(path, showStatusBar, diff, env.analyze);
  }

  lemma PipelineSucceeds(path: string, showStatusBar: bool, diff: string, analyze: string -> ApiOutcome)
    requires path != "" && !IsBlank(diff) && !IsFailure(analyze(diff))
    ensures Pipeline(path, showStatusBar, true, diff, analyze)
      == Status(showStatusBar, AnalyzingText) + [ApiRequested(diff), IntentShown(analyze(diff).intent)]
         + Status(showStatusBar, DetectedText) + [Paused(ResultHoldMs), StatusCleared]
  {
    var a := Status(showStatusBar, AnalyzingText);
    var d := Status(showStatusBar, DetectedText);
    var intent := analyze(diff).intent;
    calc {
      Pipeline(path, showStatusBar, true, diff, analyze);
      a + [ApiRequested(diff)] + ([IntentShown(intent)] + d + [Paused(ResultHoldMs), StatusCleared]);
      { assert [ApiRequested(diff)] + [IntentShown(intent)] == [ApiRequested(diff), IntentShown(intent)]; }
      a + [ApiRequested(diff), IntentShown(intent)] + d + [Paused(ResultHoldMs), StatusCleared];
    }
  }
}

=== FILE: text.dfy ===
/** The handful of .NET string operations the extension relies on:
    `char.IsWhiteSpace`, `string.IsNullOrWhiteSpace`, `Trim`, `Replace(char, char)`,
    ordinal case-insensitive `StartsWith` and `IndexOf`, and `Length` counted in
    UTF-16 code units. A null string is represented by "". */
module Text {

  /** `char.IsWhiteSpace`: the Unicode space separators, line and paragraph
      separators, U+0009..U+000D and U+0085. */
  predicate IsWhiteSpace(c: char) {
    || c == ' '
    || ('\t' <= c <= '\r')
    || c == '\U{0085}'
    || c == '\U{00A0}'
    || c == '\U{1680}'
    || ('\U{2000}' <= c <= '\U{200A}')
    || c == '\U{2028}'
    || c == '\U{2029}'
    || c == '\U{202F}'
    || c == '\U{205F}'
    || c == '\U{3000}'
  }

  /** `string.IsNullOrWhiteSpace` */
  predicate IsBlank(s: string) {
    forall i :: 0 <= i < |s| ==> IsWhiteSpace(s[i])
  }

  /** Ordinal case folding, restricted to ASCII letters: `a`..`z` map to `A`..`Z`. */
  function FoldChar(c: char): (d: char)
    ensures d == c || ('a' <= c <= 'z' && 'A' <= d <= 'Z')
  {
    if 'a' <= c <= 'z' then (c as int - 32) as char else c
  }

  function Fold(s: string): (r: string)
    ensures |r| == |s|
    ensures forall i :: 0 <= i < |s| ==> r[i] == FoldChar(s[i])
  {
    seq(|s|, i requires 0 <= i < |s| => FoldChar(s[i]))
  }

  /** `s.Replace(a, b)` for characters. */
  function Replace(s: string, a: char, b: char): (r: string)
    ensures |r| == |s|
    ensures forall i :: 0 <= i < |s| ==> r[i] == (if s[i] == a then b else s[i])
  {
    seq(|s|, i requires 0 <= i < |s| => if s[i] == a then b else s[i])
  }

  /** `s.StartsWith(prefix, StringComparison.OrdinalIgnoreCase)` */
  predicate StartsWithIgnoreCase(s: string, prefix: string) {
    |prefix| <= |s| && Fold(s[..|prefix|]) == Fold(prefix)
  }

  /** `pattern` occurs in `s` at position `i`, ignoring case. */
  predicate MatchesAt(s: string, pattern: string, i: int) {
    0 <= i && i + |pattern| <= |s| && Fold(s[i..i + |pattern|]) == Fold(pattern)
  }

  /** `s.IndexOf(pattern, from, StringComparison.OrdinalIgnoreCase)`: the first
      position at or after `from` where `pattern` occurs, or -1. */
  function IndexOfIgnoreCase(s: string, pattern: string, from: nat): (r: int)
    decreases |s| - from
    ensures r == -1 || (from <= r && MatchesAt(s, pattern, r))
    ensures r == -1 <==> forall i :: from <= i && MatchesAt(s, pattern, i) ==> false
    ensures r != -1 ==> forall i :: from <= i < r ==> !MatchesAt(s, pattern, i)
  {
    if from + |pattern| > |s| then -1
    else if MatchesAt(s, pattern, from) then from
    else IndexOfIgnoreCase(s, pattern, from + 1)
  }

  /** Number of leading white-space characters of `s`. */
  function LeadingBlank(s: string): (n: nat)
    ensures n <= |s|
    ensures IsBlank(s[..n])
    ensures n < |s| ==> !IsWhiteSpace(s[n])
  {
    if |s| > 0 && IsWhiteSpace(s[0]) then
      var n := 1 + LeadingBlank(s[1..]);
      assert s[..n] == [s[0]] + s[1..][..n - 1];
      n
    else 0
  }

  /** Number of trailing white-space characters of `s`. */
  function TrailingBlank(s: string): (n: nat)
    ensures n <= |s|
    ensures IsBlank(s[|s| - n..])
    ensures n < |s| ==> !IsWhiteSpace(s[|s| - n - 1])
  {
    if |s| > 0 && IsWhiteSpace(s[|s| - 1]) then
      var n := 1 + TrailingBlank(s[..|s| - 1]);
      assert s[|s| - n..] == s[..|s| - 1][|s| - n..] + [s[|s| - 1]];
      n
    else 0
  }

  /** `s.Trim()`: `s` without its leading and trailing white space. */
  function Trim(s: string): (r: string)
    ensures r == "" <==> IsBlank(s)
    ensures r != "" ==> !IsWhiteSpace(r[0]) && !IsWhiteSpace(r[|r| - 1])
    ensures LeadingBlank(s) + |r| <= |s|
    ensures r == s[LeadingBlank(s)..LeadingBlank(s) + |r|]
    ensures IsBlank(s[LeadingBlank(s) + |r|..])
  {
    var a := LeadingBlank(s);
    var t := s[a..];
    var b := TrailingBlank(t);
    TrimFacts(s, a, t, b);
    t[..|t| - b]
  }

  lemma TrimFacts(s: string, a: nat, t: string, b: nat)
    requires a == LeadingBlank(s) && t == s[a..] && b == TrailingBlank(t)
    ensures var r := t[..|t| - b];
      && (r == "" <==> IsBlank(s))
      && r == s[a..a + |r|]
      && s[a + |r|..] == t[|t| - b..]
  {
    var r := t[..|t| - b];
    assert r == s[a..a + |r|];
    assert s[a + |r|..] == t[|t| - b..];
    if r == "" {
      assert s == s[..a] + t[|t| - b..];
      assert IsBlank(s[..a]) && IsBlank(t[|t| - b..]);
    } else {
      assert !IsWhiteSpace(s[a]);
    }
  }

  /** `s.Length`: characters outside the Basic Multilingual Plane take two
      UTF-16 code units. */
  function Utf16Length(s: string): (n: nat)
    ensures |s| <= n <= 2 * |s|
  {
    if s == [] then 0 else (if s[0] as int > 0xFFFF then 2 else 1) + Utf16Length(s[1..])
  }
}
